=== FILE: README.md ===
# Hedger customer records, modelled in Dafny

Hedger is a small Django application for keeping customer records. Visitors
sign up with `SignUpForm` and log in. Logged-in users can look at a customer
record, update it and delete it. Anyone can add one with `AddRecordForm`. The
`Record` model doubles as the custom user model: its manager
`CustomerUserManager` creates users keyed by a normalised email.

This project models that core and proves properties of it:

- `common.dfy`: the `Option` and `Result` wrappers.
- `text.dfy`: the ASCII behaviour of the Python string operations the code
  relies on: `\d`, `str.lower()` and `str.strip()`.
- `forms.dfy`: the two forms.
  - The phone-number check `clean_phone_number` is computed by a
    deterministic scanner. It is proved to accept exactly the language of
    `^\+?1?\d{9,15}$`, and that language is proved equal to "an optional `+`,
    then 9 to 15 digits, or exactly 16 digits starting with `1`". So the
    pattern lets through a 16-digit number, although its error message says
    "Up to 15 digits allowed".
  - The declared fields of both forms become `Field` values: required or
    not, `max_length`, and whether white space is stripped. A submitted form
    becomes a map from field names to strings.
- `models.dfy`:
  - the gender and marital-status choices and their defaults;
  - the `Record` entity with `get_full_name`, `get_short_name` and
    `__str__` (`FullName`, `ShortName`, `ToString`);
  - the user manager, as `BuildUser` and the `Database` class, whose
    `records` and `banks` maps `save()` and `delete()` change in place;
  - the `on_delete=SET_NULL` rule of `bank_info`;
  - the invariant of the stored tables: records keyed by their id, bank
    references that exist, unique emails and unique phone numbers.
- `views.dfy`: the eight request handlers. They are methods of a `Site`
  class that holds the database, the current session, and the users
  sign-up has created.

Calls into code outside the application are parameters of the model:
- Django's `authenticate` is a function from a username and a password to
  an optional user.
- `BaseUserManager.normalize_email` is a function on strings.
- The validation of `UserCreationForm` is a boolean.
- The validation of the model fields that `AddRecordForm` inherits from
  `Record` and that the model does not represent (date of birth, activation
  key and the like) is a boolean too. The inherited fields it does represent
  (password, gender, marital status, bank and the four flags) are validated
  and saved as `ModelForm` does.
- A new record's id is supplied by the caller.

## Model

| member | source | states |
|---|---|---|
| Forms.CleanPhoneNumber | webapp/forms.py:28-32 | succeeds exactly when the phone number is in the language of `^\+?1?\d{9,15}$`; then it returns the number unchanged; otherwise it fails with the form's fixed message |
| Forms.PhoneLanguageIsShape | webapp/forms.py:30 | the pattern's language is: an optional `+`, then 9 to 15 digits, or exactly 16 digits whose first is `1` |
| Forms.ScannerAcceptsShape | webapp/forms.py:30 | the left-to-right scanner used by `CleanPhoneNumber` accepts exactly that closed form |
| Forms.SixteenDigitsAccepted | webapp/forms.py:30-31 | `1` followed by 15 digits, with or without `+`, is accepted although it has 16 digits and the message promises at most 15 |
| Forms.LongNumbersRejected | webapp/forms.py:30 | more than 16 digits, or 16 digits not starting with `1`, are rejected |
| Forms.FewDigitsRejected | webapp/forms.py:30-31 | a string with fewer than nine digits anywhere is rejected with the fixed message |
| Forms.ShortExampleRejected | webapp/forms.py:30 | `+12345678` (eight digits) is rejected |
| Forms.StrayCharacterRejected | webapp/forms.py:30 | any character other than a digit or one leading `+` (space, dash, parenthesis, a second `+`) makes the number invalid |
| Forms.AcceptedPhoneFitsField | webapp/forms.py:18 | an accepted phone number has at most 17 characters, so the field's `max_length=20` never rejects one |
| Forms.CleanField | webapp/forms.py:15-22 | a field's error is about that field; an accepted value is the posted value ("" when absent), stripped when the field strips; a required field's value is never empty; a bounded value fits `max_length`; a stripped value has no surrounding white space; an accepted value holds no null character; a non-empty value was submitted |
| Forms.CleanFieldAccepts | webapp/forms.py:15-22 | a field accepts the data exactly when its cleaned value is non-empty or the field is optional, fits the declared `max_length`, and holds no null character |
| Forms.NullCharacterRejected | webapp/forms.py:55-62 | a submitted value holding a null character is refused by every character field |
| Forms.FieldErrorsEmptyIff | webapp/forms.py:15-22 | a list of fields reports no error exactly when every field in it cleans successfully |
| Forms.RequiredTextClean | webapp/forms.py:55 | a required text field without a bound accepts exactly a present, non-blank value without null characters |
| Forms.BoundedTextClean | webapp/forms.py:16-21 | a required bounded text field accepts the data exactly when its value is filled in and its stripped length is within `max_length` |
| Forms.RequiredTextsClean | webapp/forms.py:55-62 | a list of required text fields accepts the data exactly when every named field is filled in |
| Forms.AddRecordFieldsAllRequired | webapp/forms.py:55-62 | AddRecordForm's eight declared fields accept the data exactly when first name, last name, email, phone, address, city, state and zipcode are all filled in |
| Forms.ErrorsOf | webapp/forms.py:28-32 | a field's outcome contributes no error exactly when it succeeded, and its one error otherwise |
| Forms.PhoneErrors | webapp/forms.py:28-32 | the phone check contributes at most the single error with the form's fixed message |
| Forms.PhoneErrorsIff | webapp/forms.py:28-32 | `clean_phone_number` adds an error exactly when the phone field is clean and its value is outside the pattern's language |
| Forms.SignUpErrors | webapp/forms.py:14-32 | a sign-up form without errors has passed the UserCreationForm checks |
| Forms.SignUpErrorsFree | webapp/forms.py:14-32 | a sign-up form has no error exactly when the UserCreationForm checks, every declared field and the phone check all pass |
| Forms.SignUpFieldsClean | webapp/forms.py:15-22 | clean sign-up fields have a username, an email and both passwords; first and last name of at most 100 characters; gender of at most 6 and marital status of at most 20 |
| Forms.SignUpAcceptedBounds | webapp/forms.py:15-32 | an accepted sign-up form meets every bound above, and its stripped phone number is at most 20 characters long and matches the pattern |
| Forms.SignUpPhoneClean | webapp/forms.py:28-32 | when the phone field is clean and `clean_phone_number` raises nothing, the stripped phone number matches the pattern |
| Forms.SignUpOptionalFields | webapp/forms.py:19-22 | leaving out the date of birth or the address never causes a field error |
| Models.GenderFromCode | webapp/models.py:53-60 | exactly the codes `X`, `M`, `F` are genders, each mapped to the choice with that code |
| Models.GenderCodeRoundTrip | webapp/models.py:53-60 | reading back a gender's code gives the same gender |
| Models.MaritalStatusFromChoice | webapp/models.py:62-72 | exactly `S`, `D`, `W`, `M` are offered choices, and none of them is the N/A value |
| Models.DefaultChoices | webapp/models.py:80-81 | the default gender is an offered choice; the default marital status `X` is not one of the offered choices; every other status is offered under its own code |
| Models.Record.FullName | webapp/models.py:124-125 | the full name is the short name (the first name), one space, then the last name |
| Models.Record.ShortName | webapp/models.py:127-128 | the short name is the first name, which is how the full name begins |
| Models.Record.ToString | webapp/models.py:121-122 | a record is shown as its email address |
| Models.ToStringIdentifies | webapp/models.py:78 | in consistent tables two stored records are shown alike exactly when they are the same record, since emails are unique |
| Models.FullNameSplits | webapp/models.py:124-125 | for first names of equal length, two records have the same full name exactly when first and last names agree |
| Models.DefaultRecord | webapp/models.py:80-98 | a fresh record is active, not staff, not superuser, with unconfirmed email, the default gender and marital status, an empty email and phone number, and no address or bank |
| Models.StoredEmail | webapp/models.py:16 | the stored email is lower-case and has no surrounding white space |
| Models.StoredEmailFixedPoint | webapp/models.py:16 | an email that is already lower-case and stripped is stored unchanged |
| Models.StoredEmailIdempotent | webapp/models.py:16 | lower-casing and stripping an already stored email changes nothing |
| Models.BlankEmailStoredEmpty | webapp/models.py:16 | an email of only white space is stored as the empty string |
| Models.BlankEmailBuildsUser | webapp/models.py:14-17 | an email of only white space passes the `if not email` check, and `_create_user` builds the user with the empty email |
| Models.BuildUser | webapp/models.py:13-28 | fails (email not set) exactly when the email is None or empty; otherwise builds an active user with the stored email, the names, the given staff and supervisor flags, not superuser, no bank, the blank phone number, and a hashed password or, for none, an unusable one |
| Models.BuildUserAsWritten | webapp/models.py:17-27 | as the code reads, every call fails: with "email not set" exactly for a missing or empty email, and otherwise with the unexpected keyword `is_supervisor` |
| Models.CreateUserAsWrittenRaises | webapp/models.py:17-27 | for the email `a@b.c` the code as written raises, while the intended user is built |
| Models.SetNullReferences | webapp/models.py:100 | deleting a BankInfo keeps every record, sets every reference to it to null, and changes nothing else |
| Models.Consistent | webapp/models.py:74-100 | the stored tables: each record under its own id, bank references that exist, no two records with the same email (`unique=True`, line 78) or the same phone number (`unique=True`, line 82) |
| Models.SetNullKeepsConsistent | webapp/models.py:100 | deleting a BankInfo keeps the tables consistent and removes no record |
| Models.OwnValuesNotTaken | webapp/models.py:78-82 | in consistent tables, a record's own email and phone number are held by no other record, so re-saving them is no duplicate |
| Models.SaveKeepsConsistent | webapp/models.py:78-82 | saving a record whose email and phone number no other record has, with an existing bank or none, keeps the tables consistent |
| Models.DeleteKeepsConsistent | webapp/models.py:74-100 | deleting a record keeps the tables consistent |
| Models.Database.CreateUserWithFlags | webapp/models.py:13-30 | on success the built user is saved under the fresh id; a missing email, a stored email or a stored phone number changes nothing and fails, with the matching error |
| Models.Database.CreateUser | webapp/models.py:32-33 | creates an active user that is neither staff nor supervisor, with the blank phone number, built by `BuildUser` from the given email, names and password (so its email is the stored form, its names are kept and its password is hashed or unusable); fails exactly for an empty email, a taken email, or when a record already has the blank phone number |
| Models.Database.CreateSuperuser | webapp/models.py:35-36 | creates an active user that is staff and supervisor but not superuser, built by `BuildUser` from the given email, names and password (so its email is the stored form, its names are kept and its password is hashed or unusable); fails exactly for an empty email, a taken email, or when a record already has the blank phone number |
| Models.Database.CreateStaff | webapp/models.py:38-39 | creates an active user that is staff but not supervisor, built by `BuildUser` from the given email, names and password (so its email is the stored form, its names are kept and its password is hashed or unusable); fails exactly for an empty email, a taken email, or when a record already has the blank phone number |
| Models.Database.Save | webapp/models.py:78-82 | saving stores the record under its id, leaves every other record and the banks alone, and keeps the tables consistent |
| Models.Database.Delete | webapp/views.py:68-69 | deleting removes exactly the record with that key and keeps the tables consistent |
| Models.Database.DeleteBankInfo | webapp/models.py:100 | deleting a BankInfo removes it and nulls exactly the references to it |
| Models.CreateTwoUsers | webapp/models.py:13-33 | of two users created through the manager, the second always fails, whatever its email, since both would have the blank phone number |
| Views.Credentials | webapp/views.py:9-10 | the login POST yields the raw username and password when both are present, and names the missing key otherwise, `username` first when both are missing |
| Views.ParseId | webapp/models.py:100 | a bank key parses exactly from a non-empty run of decimal digits |
| Views.DecimalString | webapp/models.py:100 | a rendered key is a non-empty run of decimal digits |
| Views.ParseIdRoundTrip | webapp/models.py:100 | parsing a rendered key gives the key back |
| Views.GenderChoice | webapp/models.py:80 | the inherited gender field is required and accepts exactly one of the codes `X`, `M`, `F`, giving the gender with that code |
| Views.MaritalStatusChoice | webapp/models.py:62-72 | the inherited marital-status field is required and accepts exactly `S`, `D`, `W`, `M`, never the default `X` |
| Views.BankChoice | webapp/models.py:100 | the inherited bank field accepts an empty value (no bank) or the key of an existing BankInfo, and nothing else |
| Views.ListedBankSelected | webapp/models.py:100 | submitting the rendered key of an existing bank selects that bank |
| Views.InheritedErrors | webapp/forms.py:64-66 | the inherited fields add no error exactly when the password (required, at most 128 characters), gender, marital status and bank are valid |
| Views.ValuesOf | webapp/forms.py:54-66 | the values the form saves: stripped texts, the chosen gender and marital status under their posted codes, all four check boxes unticked when absent, and no bank when `bank_info` is absent |
| Views.ValuesOfCleaned | webapp/forms.py:54-66 | each saved text and the password is the cleaned value of its field, the gender, marital status and bank are the choices' cleaned values, and each flag is its check box as CheckboxInput reads it |
| Views.LengthErrors | webapp/models.py:76-83 | the Record model adds no length error exactly when both names fit 50 characters and the address 255 |
| Views.UniquenessErrors | webapp/models.py:78-82 | `validate_unique` adds no error exactly when no other record has the email or the phone number |
| Views.ModelErrors | webapp/models.py:76-83 | the Record model adds no error exactly when the lengths fit, email and phone number are unique, and the rest of its validation passes |
| Views.AddRecordForm | webapp/forms.py:54-66 | a rejected form always carries errors; an accepted one yields the cleaned values, whose email and phone number no other record has and whose bank exists |
| Views.AddRecordFormAccepts | webapp/forms.py:54-66 | the form is accepted exactly when its eight fields are filled in, the inherited fields are valid, and the Record model's validation passes |
| Views.DuplicateEmailRejected | webapp/models.py:78 | a form whose email another record already has is rejected |
| Views.DuplicatePhoneRejected | webapp/models.py:82 | a form whose phone number another record already has is rejected |
| Views.AcceptedMaritalStatusDeclared | webapp/models.py:62-81 | an accepted form never leaves the marital status at the default `X` |
| Views.ApplyValues | webapp/views.py:80-93 | saving the form into a record keeps only its id and supervisor flag |
| Views.ApplyValuesOverwrites | webapp/forms.py:64-66 | saving the form writes every modelled column but the id and the supervisor flag from the form, the password as plain text, so the result does not depend on the record's earlier values |
| Views.SavedFormOverwritesAccount | webapp/views.py:91-93 | an update stores the posted password as plain text, and deactivates the record when the POST carries no `is_active` box |
| Views.RegisterErrors | webapp/views.py:40-41 | a sign-up has no error exactly when the form passes and no saved user has the username, in any letter case |
| Views.TakenUsernameRejected | webapp/views.py:40-41 | a username a saved user already has, in any letter case, is refused |
| Views.Site.Home | webapp/views.py:7-20 | GET lists every record and leaves the session alone; POST with a missing credential is a server error naming the key; a login `authenticate` accepts sets the session and redirects; a refused one leaves the session unchanged |
| Views.Site.LoginUser | webapp/views.py:22-32 | like the POST branch of home, except a refused login, and a GET, render the login page with the session unchanged |
| Views.Site.LogoutUser | webapp/views.py:34-36 | whatever the session was, afterwards nobody is logged in, so a second logout changes nothing |
| Views.Site.RegisterUser | webapp/views.py:38-55 | an invalid sign-up, or one with a taken username, changes nothing and shows its errors; a valid one adds the stripped username to the users and logs in as whoever `authenticate` returns for it, if anyone |
| Views.Site.CustomerRecord | webapp/views.py:57-64 | changes nothing; an anonymous caller is redirected; a logged-in caller gets the record with that id, or DoesNotExist |
| Views.Site.DeleteRecord | webapp/views.py:66-74 | anonymous callers change nothing; a logged-in caller removes exactly that record, or gets DoesNotExist and changes nothing |
| Views.Site.SubmitRecordForm | webapp/views.py:78-82 | validates AddRecordForm and, when it is accepted, saves its values into the instance, keeping the tables consistent |
| Views.Site.AddRecord | webapp/views.py:76-86 | no login is needed; an accepted form adds one record under the fresh id, built from the form's values on the defaults; a rejected form changes nothing |
| Views.Site.EditRecord | webapp/views.py:91-96 | a GET or a POST without any parameter leaves the form unbound and changes nothing; otherwise an accepted form rewrites the record in place and a rejected one changes nothing |
| Views.Site.UpdateRecord | webapp/views.py:88-99 | anonymous callers change nothing; a missing record is DoesNotExist; otherwise as EditRecord |
| Views.DeleteTwice | webapp/views.py:66-74 | deleting the same record twice removes it once and then reports DoesNotExist |

## Left out

- Email normalisation: `normalize_email` is a parameter. The model does not spell out its lower-casing of the domain part.
- Non-ASCII text: `\d`, `lower()` and `strip()` are modelled on ASCII only. Python's versions also act on other Unicode digits, letters and spaces.
- Trailing newline: `$` in `re.match` also matches just before a final newline. The field strips the value first, so no newline reaches the pattern, and the model leaves that case out.
- `PhoneNumberField` parsing: the Record model's check that the phone number parses is folded into the `modelOk` flag. Its uniqueness is modelled on the stripped text, not on the parsed number, so two spellings of one number count as different.
- Unmodelled form validation is reduced to booleans: `EmailField`, `DateField`, the checks of `UserCreationForm` (matching and strong passwords, the username validators, the User columns' lengths), and the inherited Record fields the model does not represent. Those are `date_of_birth` and `activation_key` (both required by the form), `last_login`, `one_signal_id`, `phone_id`, the next-of-kin fields, `otp_code`, `profile_picture`, `groups` and `user_permissions`. `form.save()` also writes these, and the model does not record them.
- Views.BankChoice: `int()` also accepts a sign, underscores between digits and non-ASCII digits; the model parses plain ASCII digits only.
- Views.RegisterErrors: the username is compared without regard to letter case, as `UserCreationForm.clean_username` does from Django 4.2 on. Earlier versions compare it exactly; those versions still refuse every exact match.
- POST parameters the application does not read (the CSRF token, say) are not part of `FormData`. Whether the POST was empty is the separate flag `emptyPost` of `Views.Site.UpdateRecord`.
- Extra keyword fields: of `_create_user`'s `extra_fields`, only `password` is modelled.
- `set_password` is modelled as an abstract `HashOf`.
- Values produced by the runtime are not modelled: UUID primary keys, activation keys and timestamps. A new record's id is a parameter.
- Output is not modelled: templates, flash messages and redirects' URLs. Replies are a datatype naming the page or the server error.
- `BankInfo.__str__` plays no part in the modelled behaviour.
- City, state and zipcode are required by AddRecordForm but are not Record columns, so saving drops them.
- `add_record` sets `record.user`, which is not a column; that assignment has no effect on the stored row and is not modelled.
- `BuildUser` models the evidently intended behaviour: Record has an `is_supervisor` column (see Findings). Under the other reading, where `is_supervisor` misspells `is_superuser`, `Models.Database.CreateSuperuser` would create a superuser; the model does not cover that reading. The code as written is `BuildUserAsWritten`.
- `SignUpForm.save()`: the saved user is modelled only by its username, added to the site's set of users.
- Views.UniquenessErrors: also reports a duplicate email or phone number when that field is blank. Such a form is already rejected as incomplete, so only the error list differs from Django's, not whether the form is accepted.
- Forms.CleanField: a field that fails is reported with a single error. The model does not reproduce Django's full error messages, nor the order of the fields in the error list.
- Concurrency between requests, and the database transaction behaviour of `save()` and `delete()`, are not modelled.

## Findings

| source | as written | input that shows it | evidently intended | confidence | as-written member | corrected member |
|---|---|---|---|---|---|---|
| webapp/models.py:17-27 | `_create_user` passes `is_supervisor=...` to the Record constructor, but Record declares no such field, so the constructor raises TypeError | `create_user("a@b.c", "", "")` | the user is built with a supervisor flag and saved. A second reading is that `is_supervisor` misspells `is_superuser`, so `create_superuser` would set `is_superuser`. The model takes the first: the name is spelled the same way in the signature and at all three call sites, so it reads as a chosen flag rather than a slip of the keyboard | high, from the model's field list and Django's constructor contract; not executed | Models.CreateUserAsWrittenRaises | Models.BuildUser |

=== FILE: common.dfy ===
/** Option and Result, used for Python's None and for raised exceptions. */
module Common {

  datatype Option<+T> = None | Some(value: T)

  /** Either a value or the error the source raises instead of returning one. */
  datatype Result<+T, +E> = Ok(value: T) | Err(error: E)
}

=== FILE: forms.dfy ===
/**
 * The validation rules of webapp/forms.py: the phone-number check of the
 * sign-up form, and the declared bounds and required flags of the sign-up
 * form and the add-record form.
 */
module Forms {
  import opened Common
  import opened Text

  /** The message of the ValidationError raised for a malformed phone number. */
  const PhoneErrorMessage: string :=
    "Phone number must be entered in the format: '+999999999'. Up to 15 digits allowed."

  /**
   * The names of the form fields and POST parameters the application reads.
   * The last five are Record fields AddRecordForm inherits from the model
   * (`Bank` is the `bank_info` parameter).
   */
  datatype FieldName =
    | Username | Password | Password1 | Password2 | Email | FirstName | LastName
    | PhoneNumber | DateOfBirth | GenderParam | MaritalStatusParam | Address | City | State | Zipcode
    | IsStaff | IsSuperuser | IsActive | ConfirmedEmail | Bank

  /** The submitted POST parameters, by name. */
  type FormData = map<FieldName, string>

  datatype FieldError =
    | Required(field: FieldName)
    | TooLong(field: FieldName, limit: nat)
    | Invalid(field: FieldName, message: string)
  {
    function Field(): FieldName {
      match this
      case Required(f) => f
      case TooLong(f, _) => f
      case Invalid(f, _) => f
    }
  }

  predicate AllDigits(s: string) { forall i :: 0 <= i < |s| ==> IsDigit(s[i]) }

  function DigitCount(s: string): (n: nat)
    ensures n <= |s|
  {
    if s == [] then 0 else (if IsDigit(s[0]) then 1 else 0) + DigitCount(s[1..])
  }

  // ---------------------------------------------------------------------
  // The language of ^\+?1?\d{9,15}$
  // ---------------------------------------------------------------------

  /**
   * `s` matches the pattern when the optional `+` is taken exactly when
   * `plus` holds and the optional `1` exactly when `one` holds.
   */
  predicate MatchesWith(s: string, plus: bool, one: bool)
  {
    var prefix := (if plus then "+" else "") + (if one then "1" else "");
    |prefix| <= |s| && s[..|prefix|] == prefix
    && AllDigits(s[|prefix|..]) && 9 <= |s| - |prefix| <= 15
  }

  /** The strings the regular expression matches: some choice of the two optional atoms works. */
  predicate InPhoneLanguage(s: string)
  {
    MatchesWith(s, false, false) || MatchesWith(s, false, true)
    || MatchesWith(s, true, false) || MatchesWith(s, true, true)
  }

  /** `s` without its leading `+`, if it has one. */
  function Unsigned(s: string): (d: string)
    ensures d == s || (s != [] && s[0] == '+' && d == s[1..])
  {
    if s != [] && s[0] == '+' then s[1..] else s
  }

  /**
   * The closed form of the language: an optional `+`, then 9 to 15 digits,
   * or exactly 16 digits of which the first is `1`.
   */
  predicate PhoneShape(s: string)
  {
    var d := Unsigned(s);
    AllDigits(d) && (9 <= |d| <= 15 || (|d| == 16 && d[0] == '1'))
  }

  lemma PhoneLanguageIsShape(s: string)
    ensures InPhoneLanguage(s) <==> PhoneShape(s)
  {
    var d := Unsigned(s);
    if PhoneShape(s) {
      var plus := s != [] && s[0] == '+';
      if |d| <= 15 {
        assert MatchesWith(s, plus, false);
      } else {
        assert d[1..] == s[|s| - 15..];
        assert MatchesWith(s, plus, true);
      }
    }
    if MatchesWith(s, true, true) {
      assert s[0] == '+' && d == s[1..] && d[0] == '1';
      assert d[1..] == s[2..];
    }
    if MatchesWith(s, false, true) {
      assert s[0] == '1' && d == s && d[1..] == s[1..];
    }
    if MatchesWith(s, true, false) {
      assert d == s[1..];
    }
  }

  // ---------------------------------------------------------------------
  // A deterministic scanner for the pattern
  // ---------------------------------------------------------------------

  datatype ScanState =
    | Start
    | AfterPlus
    | Digits(count: nat, leadingOne: bool)
    | Reject

  function Step(q: ScanState, c: char): ScanState
  {
    match q
    case Start =>
      if c == '+' then AfterPlus
      else if IsDigit(c) then Digits(1, c == '1')
      else Reject
    case AfterPlus => if IsDigit(c) then Digits(1, c == '1') else Reject
    case Digits(n, one) => if IsDigit(c) && n < 16 then Digits(n + 1, one) else Reject
    case Reject => Reject
  }

  function Run(q: ScanState, s: string): ScanState
    decreases |s|
  {
    if s == [] then q else Run(Step(q, s[0]), s[1..])
  }

  predicate Accepting(q: ScanState)
  {
    q.Digits? && (9 <= q.count <= 15 || (q.count == 16 && q.leadingOne))
  }

  lemma {:induction false} RunFromReject(s: string)
    ensures Run(Reject, s) == Reject
  {
    if s != [] {
      RunFromReject(s[1..]);
    }
  }

  lemma {:induction false} RunFromDigits(n: nat, one: bool, s: string)
    requires 1 <= n <= 16
    ensures Run(Digits(n, one), s)
            == if AllDigits(s) && n + |s| <= 16 then Digits(n + |s|, one) else Reject
    decreases |s|
  {
    if s != [] {
      assert AllDigits(s) <==> IsDigit(s[0]) && AllDigits(s[1..]);
      if IsDigit(s[0]) && n < 16 {
        RunFromDigits(n + 1, one, s[1..]);
      } else {
        RunFromReject(s[1..]);
      }
    }
  }

  /** The scanner, started on the digits after the optional `+`, accepts exactly the shape. */
  lemma {:induction false} RunFromSign(q: ScanState, d: string)
    requires q == Start || q == AfterPlus
    requires q == Start ==> d == [] || d[0] != '+'
    ensures Accepting(Run(q, d))
            <==> AllDigits(d) && (9 <= |d| <= 15 || (|d| == 16 && d[0] == '1'))
  {
    if d == [] {
    } else if IsDigit(d[0]) {
      RunFromDigits(1, d[0] == '1', d[1..]);
      assert AllDigits(d) <==> AllDigits(d[1..]);
    } else {
      RunFromReject(d[1..]);
    }
  }

  lemma {:induction false} ScannerAcceptsShape(s: string)
    ensures Accepting(Run(Start, s)) <==> PhoneShape(s)
  {
    if s != [] && s[0] == '+' {
      RunFromSign(AfterPlus, s[1..]);
    } else {
      RunFromSign(Start, s);
    }
  }

  // ---------------------------------------------------------------------
  // SignUpForm.clean_phone_number
  // ---------------------------------------------------------------------

  /**
   * The phone number is returned unchanged when the whole string matches
   * ^\+?1?\d{9,15}$, and a ValidationError with the fixed message is raised
   * otherwise.
   */
  function CleanPhoneNumber(phone: string): (r: Result<string, FieldError>)
    ensures r.Ok? <==> InPhoneLanguage(phone)
    ensures r.Ok? ==> r.value == phone
    ensures r.Err? ==> r.error == Invalid(PhoneNumber, PhoneErrorMessage)
  {
    ScannerAcceptsShape(phone);
    PhoneLanguageIsShape(phone);
    if Accepting(Run(Start, phone)) then Ok(phone)
    else Err(Invalid(PhoneNumber, PhoneErrorMessage))
  }

  /** The digits `1` followed by 15 more are accepted: 16 digits, despite "Up to 15 digits". */
  lemma SixteenDigitsAccepted(rest: string)
    requires AllDigits(rest) && |rest| == 15
    ensures CleanPhoneNumber("+1" + rest) == Ok("+1" + rest)
    ensures CleanPhoneNumber("1" + rest) == Ok("1" + rest)
    ensures DigitCount("1" + rest) == 16
  {
    assert MatchesWith("+1" + rest, true, true);
    assert MatchesWith("1" + rest, false, true);
    AllDigitsCount("1" + rest);
  }

  /** Sixteen digits not starting with `1`, and seventeen digits, are rejected. */
  lemma LongNumbersRejected(s: string)
    requires |Unsigned(s)| > 16 || (|Unsigned(s)| == 16 && Unsigned(s)[0] != '1')
    ensures CleanPhoneNumber(s).Err?
  {
    PhoneLanguageIsShape(s);
  }

  lemma {:induction false} AllDigitsCount(s: string)
    requires AllDigits(s)
    ensures DigitCount(s) == |s|
  {
    if s != [] {
      AllDigitsCount(s[1..]);
    }
  }

  /** Fewer than nine digits anywhere in the string means rejection. */
  lemma FewDigitsRejected(s: string)
    requires DigitCount(s) < 9
    ensures CleanPhoneNumber(s) == Err(Invalid(PhoneNumber, PhoneErrorMessage))
  {
    PhoneLanguageIsShape(s);
    var d := Unsigned(s);
    if AllDigits(d) {
      AllDigitsCount(d);
      if d != s {
        assert DigitCount(s) == DigitCount(d);
      }
    }
  }

  lemma ShortExampleRejected()
    ensures CleanPhoneNumber("+12345678").Err?
  {
    FewDigitsRejected("+12345678");
  }

  /**
   * Any character that is neither a digit nor the one leading `+` (a space,
   * a dash, a parenthesis, a second `+`) makes the number invalid.
   */
  lemma StrayCharacterRejected(s: string, i: nat)
    requires i < |s| && !IsDigit(s[i]) && !(i == 0 && s[i] == '+')
    ensures CleanPhoneNumber(s).Err?
  {
    PhoneLanguageIsShape(s);
    var d := Unsigned(s);
    if d != s {
      assert d[i - 1] == s[i];
    } else {
      assert d[i] == s[i];
    }
  }

  /** An accepted phone number is at most 17 characters long, inside the form's bound of 20. */
  lemma AcceptedPhoneFitsField(s: string)
    requires CleanPhoneNumber(s).Ok?
    ensures |s| <= 17
  {
    PhoneLanguageIsShape(s);
  }

  // ---------------------------------------------------------------------
  // Declared form fields
  // ---------------------------------------------------------------------

  /**
   * A declared character field: whether it is required, its `max_length`,
   * and whether surrounding white space is stripped before validation.
   */
  datatype Field = Field(name: FieldName, required: bool, maxLength: Option<nat>, strip: bool)

  /** The message of the validator every CharField carries against null characters. */
  const NullCharacterMessage: string := "Null characters are not allowed."

  /** The posted value of `f` (or "" when it is absent), stripped when `f` strips. */
  function Cleaned(f: Field, data: FormData): string
  {
    var raw := if f.name in data then data[f.name] else "";
    if f.strip then Strip(raw) else raw
  }

  /**
   * A field as Django's CharField treats it: strip, then required, then the
   * validators: `max_length`, then the ban on null characters.
   */
  function CleanField(f: Field, data: FormData): (r: Result<string, FieldError>)
    ensures r.Err? ==> r.error.Field() == f.name
    ensures r.Ok? && f.required ==> r.value != ""
    ensures r.Ok? && f.maxLength.Some? ==> |r.value| <= f.maxLength.value
    ensures r.Ok? && f.strip ==> IsStripped(r.value)
    ensures r.Ok? ==> '\0' !in r.value
    ensures r.Ok? && r.value != "" ==> f.name in data
    ensures r.Ok? ==> r.value == Cleaned(f, data)
  {
    var v := Cleaned(f, data);
    if v == "" then
      (if f.required then Err(Required(f.name)) else Ok(""))
    else if f.maxLength.Some? && |v| > f.maxLength.value then
      Err(TooLong(f.name, f.maxLength.value))
    else if '\0' in v then
      Err(Invalid(f.name, NullCharacterMessage))
    else
      Ok(v)
  }

  /** A value holding a null character is refused, however it is otherwise declared. */
  lemma NullCharacterRejected(f: Field, data: FormData)
    requires f.name in data && '\0' in data[f.name]
    ensures CleanField(f, data).Err?
  {
    var raw := data[f.name];
    if f.strip {
      StripKeepsNonSpace(raw, '\0');
    }
  }

  /**
   * When a field accepts the data: its cleaned value is non-empty or the
   * field is optional, fits `max_length` if one is declared, and holds no
   * null character.
   */
  lemma CleanFieldAccepts(f: Field, data: FormData)
    ensures CleanField(f, data).Ok? <==>
              && (Cleaned(f, data) == "" ==> !f.required)
              && (f.maxLength.Some? ==> |Cleaned(f, data)| <= f.maxLength.value)
              && '\0' !in Cleaned(f, data)
  {
  }

  /** The errors of every declared field, in declaration order. */
  function FieldErrors(fields: seq<Field>, data: FormData): (errs: seq<FieldError>)
    ensures |errs| <= |fields|
  {
    if fields == [] then []
    else
      var rest := FieldErrors(fields[1..], data);
      match CleanField(fields[0], data)
      case Ok(_) => rest
      case Err(e) => [e] + rest
  }

  lemma {:induction false} FieldErrorsEmptyIff(fields: seq<Field>, data: FormData)
    ensures FieldErrors(fields, data) == []
            <==> forall i :: 0 <= i < |fields| ==> CleanField(fields[i], data).Ok?
  {
    if fields != [] {
      FieldErrorsEmptyIff(fields[1..], data);
      assert forall i :: 1 <= i < |fields| ==> fields[i] == fields[1..][i - 1];
    }
  }

  function BoundedText(name: FieldName, maxLength: nat): Field { Field(name, true, Some(maxLength), true) }

  function RequiredText(name: FieldName): Field { Field(name, true, None, true) }

  /** Present, not blank, and free of null characters. */
  predicate Filled(data: FormData, name: FieldName)
  {
    name in data && Strip(data[name]) != "" && '\0' !in Strip(data[name])
  }

  lemma RequiredTextClean(name: FieldName, data: FormData)
    ensures CleanField(RequiredText(name), data).Ok? <==> Filled(data, name)
  {
  }

  /** A required bounded text field accepts exactly the filled-in values within `max_length`. */
  lemma BoundedTextClean(name: FieldName, limit: nat, data: FormData)
    ensures CleanField(BoundedText(name, limit), data).Ok?
            <==> Filled(data, name) && |Strip(data[name])| <= limit
  {
  }

  // ---------------------------------------------------------------------
  // AddRecordForm
  // ---------------------------------------------------------------------

  /** The eight fields AddRecordForm declares, all required and without a length bound. */
  const AddRecordFieldNames: seq<FieldName> :=
    [FirstName, LastName, Email, PhoneNumber, Address, City, State, Zipcode]

  function RequiredTexts(names: seq<FieldName>): (fs: seq<Field>)
    ensures |fs| == |names|
  {
    if names == [] then [] else [RequiredText(names[0])] + RequiredTexts(names[1..])
  }

  const AddRecordFields: seq<Field> := RequiredTexts(AddRecordFieldNames)

  /** The `password` field AddRecordForm inherits from the model: required, at most 128 characters. */
  const RecordPasswordField: Field := BoundedText(Password, 128)

  /** Required unbounded text fields accept the data exactly when each of them is filled in. */
  lemma {:induction false} RequiredTextsClean(names: seq<FieldName>, data: FormData)
    ensures FieldErrors(RequiredTexts(names), data) == []
            <==> forall n :: n in names ==> Filled(data, n)
  {
    if names != [] {
      var fs := RequiredTexts(names);
      assert fs[0] == RequiredText(names[0]) && fs[1..] == RequiredTexts(names[1..]);
      RequiredTextsClean(names[1..], data);
      RequiredTextClean(names[0], data);
      if forall n :: n in names ==> Filled(data, n) {
        assert names[0] in names;
        forall n | n in names[1..] ensures Filled(data, n) {
          assert n in names;
        }
      }
      if FieldErrors(fs, data) == [] {
        forall n | n in names ensures Filled(data, n) {
          if n != names[0] {
            assert n in names[1..];
          }
        }
      }
    }
  }

  /** The add-record form's own fields accept the data exactly when all eight are filled in. */
  lemma AddRecordFieldsAllRequired(data: FormData)
    ensures FieldErrors(AddRecordFields, data) == []
            <==> forall n :: n in AddRecordFieldNames ==> Filled(data, n)
  {
    RequiredTextsClean(AddRecordFieldNames, data);
  }

  // ---------------------------------------------------------------------
  // SignUpForm
  // ---------------------------------------------------------------------

  /*
   * The fields SignUpForm declares, plus the username and the two password
   * fields it takes from UserCreationForm (the password fields keep their
   * white space). `email` is an EmailField and `date_of_birth` a DateField:
   * only their required flags are modelled.
   */
  const UsernameField := Field(Username, true, Some(150), true)
  const SignUpEmailField := Field(Email, true, None, true)
  const FirstNameField := BoundedText(FirstName, 100)
  const LastNameField := BoundedText(LastName, 100)
  const PhoneField := BoundedText(PhoneNumber, 20)
  const DateOfBirthField := Field(DateOfBirth, false, None, true)
  const GenderField := BoundedText(GenderParam, 6)
  const MaritalStatusField := BoundedText(MaritalStatusParam, 20)
  const SignUpAddressField := Field(Address, false, Some(100), true)
  const Password1Field := Field(Password1, true, None, false)
  const Password2Field := Field(Password2, true, None, false)

  function ErrorsOf<T>(r: Result<T, FieldError>): (errs: seq<FieldError>)
    ensures errs == [] <==> r.Ok?
    ensures r.Err? ==> errs == [r.error]
  {
    if r.Err? then [r.error] else []
  }

  /** The sign-up fields in declaration order. */
  const SignUpFields: seq<Field> :=
    [UsernameField, SignUpEmailField, FirstNameField, LastNameField, PhoneField, DateOfBirthField,
     GenderField, MaritalStatusField, SignUpAddressField, Password1Field, Password2Field]

  /** The field errors of a submitted sign-up form, in declaration order. */
  function SignUpFieldErrors(data: FormData): seq<FieldError>
  {
    FieldErrors(SignUpFields, data)
  }

  /** The error of `clean_phone_number`, which runs only once the phone field itself is clean. */
  function PhoneErrors(data: FormData): (errs: seq<FieldError>)
    ensures errs != [] ==> errs == [Invalid(PhoneNumber, PhoneErrorMessage)]
  {
    match CleanField(PhoneField, data)
    case Err(_) => []
    case Ok(phone) => ErrorsOf(CleanPhoneNumber(phone))
  }

  /**
   * The errors of a submitted sign-up form. `userCreationOk` stands for
   * every check not modelled here: the checks SignUpForm inherits from
   * UserCreationForm (matching passwords, password strength, the username
   * validators and the User columns' lengths) and the format checks of its
   * EmailField and DateField. The unique-username check needs the saved
   * users and is `Views.RegisterErrors`. Its failure is reported on
   * `password2`, where UserCreationForm reports mismatched passwords; for
   * the other checks that field only stands in for the one that failed.
   */
  function SignUpErrors(data: FormData, userCreationOk: bool): (errs: seq<FieldError>)
    ensures errs == [] ==> userCreationOk
  {
    SignUpFieldErrors(data) + PhoneErrors(data)
    + (if userCreationOk then [] else [Invalid(Password2, "rejected by UserCreationForm")])
  }

  /**
   * The phone check adds an error exactly when the phone field is clean and
   * its value is outside the pattern's language.
   */
  lemma PhoneErrorsIff(data: FormData)
    ensures PhoneErrors(data) == [] <==>
              CleanField(PhoneField, data).Err? || InPhoneLanguage(CleanField(PhoneField, data).value)
  {
  }

  /** A sign-up form has no error exactly when its fields, the phone check and UserCreationForm all pass. */
  lemma SignUpErrorsFree(data: FormData, userCreationOk: bool)
    ensures SignUpErrors(data, userCreationOk) == []
            <==> userCreationOk && SignUpFieldErrors(data) == [] && PhoneErrors(data) == []
  {
    assert |SignUpErrors(data, userCreationOk)|
           == |SignUpFieldErrors(data)| + |PhoneErrors(data)| + (if userCreationOk then 0 else 1);
  }

  lemma SignUpFieldsClean(data: FormData)
    requires SignUpFieldErrors(data) == []
    ensures Filled(data, Username) && Filled(data, Email)
    ensures Password1 in data && data[Password1] != "" && Password2 in data && data[Password2] != ""
    ensures Filled(data, FirstName) && |Strip(data[FirstName])| <= 100
    ensures Filled(data, LastName) && |Strip(data[LastName])| <= 100
    ensures CleanField(PhoneField, data).Ok?
    ensures Filled(data, GenderParam) && |Strip(data[GenderParam])| <= 6
    ensures Filled(data, MaritalStatusParam) && |Strip(data[MaritalStatusParam])| <= 20
    ensures Address in data ==> |Strip(data[Address])| <= 100
  {
    FieldErrorsEmptyIff(SignUpFields, data);
    var fs := SignUpFields;
    assert CleanField(fs[0], data).Ok? && CleanField(fs[1], data).Ok?;
    assert CleanField(fs[2], data).Ok? && CleanField(fs[3], data).Ok?;
    assert CleanField(fs[4], data).Ok? && CleanField(fs[6], data).Ok?;
    assert CleanField(fs[7], data).Ok? && CleanField(fs[8], data).Ok?;
    assert CleanField(fs[9], data).Ok? && CleanField(fs[10], data).Ok?;
    BoundedTextClean(FirstName, 100, data);
    BoundedTextClean(LastName, 100, data);
    BoundedTextClean(GenderParam, 6, data);
    BoundedTextClean(MaritalStatusParam, 20, data);
  }

  /**
   * A sign-up form without errors has a username, an email and both
   * passwords, first and last names of at most 100 characters, a phone
   * number of at most 20 characters that matches the pattern, a gender of at
   * most 6 and a marital status of at most 20 characters, and an address,
   * if any, of at most 100 characters.
   */
  lemma SignUpAcceptedBounds(data: FormData, userCreationOk: bool)
    requires SignUpErrors(data, userCreationOk) == []
    ensures userCreationOk
    ensures Filled(data, Username) && Filled(data, Email)
    ensures Password1 in data && data[Password1] != "" && Password2 in data && data[Password2] != ""
    ensures Filled(data, FirstName) && |Strip(data[FirstName])| <= 100
    ensures Filled(data, LastName) && |Strip(data[LastName])| <= 100
    ensures Filled(data, PhoneNumber) && |Strip(data[PhoneNumber])| <= 20
    ensures InPhoneLanguage(Strip(data[PhoneNumber]))
    ensures Filled(data, GenderParam) && |Strip(data[GenderParam])| <= 6
    ensures Filled(data, MaritalStatusParam) && |Strip(data[MaritalStatusParam])| <= 20
    ensures Address in data ==> |Strip(data[Address])| <= 100
  {
    SignUpErrorsFree(data, userCreationOk);
    SignUpFieldsClean(data);
    SignUpPhoneClean(data);
  }

  lemma SignUpPhoneClean(data: FormData)
    requires CleanField(PhoneField, data).Ok? && PhoneErrors(data) == []
    ensures Filled(data, PhoneNumber) && |Strip(data[PhoneNumber])| <= 20
    ensures InPhoneLanguage(Strip(data[PhoneNumber]))
  {
    BoundedTextClean(PhoneNumber, 20, data);
    assert CleanField(PhoneField, data) == Ok(Strip(data[PhoneNumber]));
  }

  /** Leaving out the date of birth or the address never makes a sign-up field invalid. */
  lemma SignUpOptionalFields(data: FormData)
    ensures CleanField(DateOfBirthField, data - {DateOfBirth}).Ok?
    ensures CleanField(SignUpAddressField, data - {Address}).Ok?
  {
  }
}

=== FILE: models.dfy ===
/**
 * The data model of webapp/models.py: the customer Record, its choice sets
 * and accessors, BankInfo with the SET_NULL rule of `Record.bank_info`, and
 * the user manager that creates records.
 */
module Models {
  import opened Common
  import opened Text

  /** A primary key (a UUID in the source). */
  type Id = nat

  /** The primary key of a BankInfo row. */
  type BankId = nat

  /** `Record.gender`: the three declared choices, 'X' by default. */
  datatype Gender = GenderNA | Male | Female
  {
    function Code(): char
    {
      match this
      case GenderNA => 'X'
      case Male => 'M'
      case Female => 'F'
    }
  }

  const DefaultGender: Gender := GenderNA

  /** The codes the gender field accepts. */
  function GenderFromCode(c: char): (g: Option<Gender>)
    ensures g.Some? <==> c in {'X', 'M', 'F'}
    ensures g.Some? ==> g.value.Code() == c
  {
    if c == 'X' then Some(GenderNA)
    else if c == 'M' then Some(Male)
    else if c == 'F' then Some(Female)
    else None
  }

  lemma GenderCodeRoundTrip(g: Gender)
    ensures GenderFromCode(g.Code()) == Some(g)
  {
  }

  /**
   * `Record.marital_status`. MaritalNA is the default 'X'; it is not among
   * the four declared choices.
   */
  datatype MaritalStatus = MaritalNA | Single | Divorced | Widowed | Married
  {
    function Code(): char
    {
      match this
      case MaritalNA => 'X'
      case Single => 'S'
      case Divorced => 'D'
      case Widowed => 'W'
      case Married => 'M'
    }
  }

  const DefaultMaritalStatus: MaritalStatus := MaritalNA

  /** The codes of the declared choices, which is what choice validation accepts. */
  function MaritalStatusFromChoice(c: char): (m: Option<MaritalStatus>)
    ensures m.Some? <==> c in {'S', 'D', 'W', 'M'}
    ensures m.Some? ==> m.value.Code() == c && m.value != MaritalNA
  {
    if c == 'S' then Some(Single)
    else if c == 'D' then Some(Divorced)
    else if c == 'W' then Some(Widowed)
    else if c == 'M' then Some(Married)
    else None
  }

  /**
   * The gender default is one of its choices; the marital-status default
   * 'X' is not, so choice validation rejects a record left at that default.
   */
  lemma DefaultChoices()
    ensures GenderFromCode(DefaultGender.Code()) == Some(DefaultGender)
    ensures DefaultMaritalStatus.Code() == 'X'
    ensures MaritalStatusFromChoice(DefaultMaritalStatus.Code()) == None
    ensures forall m: MaritalStatus :: m != MaritalNA ==> MaritalStatusFromChoice(m.Code()) == Some(m)
  {
  }

  /**
   * The stored password: the empty default, an unusable one, the hash of a
   * raw password (what `set_password` stores), or text written into the
   * column as it was posted (what a ModelForm that includes the field stores).
   */
  datatype Password = Blank | Unusable | HashOf(raw: string) | PlainText(text: string)

  datatype BankInfo = BankInfo(bankName: string, accountNumber: string, ifscCode: string)

  /**
   * A Record row. `isSupervisor` is the flag the user manager passes;
   * models.py does not declare it as a field of Record (it declares
   * `is_superuser`, which the manager never sets).
   */
  datatype Record = Record(
    id: Id,
    email: string,
    firstName: string,
    lastName: string,
    phoneNumber: string,
    address: Option<string>,
    gender: Gender,
    maritalStatus: MaritalStatus,
    confirmedEmail: bool,
    isStaff: bool,
    isSuperuser: bool,
    isSupervisor: bool,
    isActive: bool,
    password: Password,
    bankInfo: Option<BankId>)
  {
    /** `get_full_name`. */
    function FullName(): (s: string)
      ensures |s| == |firstName| + 1 + |lastName|
      ensures s[..|firstName|] == ShortName()
      ensures s[|firstName|] == ' ' && s[|firstName| + 1..] == lastName
    {
      firstName + " " + lastName
    }

    /** `get_short_name`. */
    function ShortName(): (s: string)
      ensures s == firstName
    {
      firstName
    }

    /** `__str__`: a record is shown as its email address. */
    function ToString(): (s: string)
      ensures s == email
    {
      email
    }
  }

  /** The full name determines the short name and the last name, given the length of the first name. */
  lemma FullNameSplits(r: Record, q: Record)
    requires |r.firstName| == |q.firstName|
    ensures r.FullName() == q.FullName() <==> r.firstName == q.firstName && r.lastName == q.lastName
  {
    if r.FullName() == q.FullName() {
      assert r.ShortName() == r.FullName()[..|r.firstName|];
      assert r.lastName == r.FullName()[|r.firstName| + 1..];
    }
  }

  /** A new row: every field at the default models.py declares for it. */
  function DefaultRecord(id: Id): (r: Record)
    ensures r.id == id && r.isActive && !r.isStaff && !r.isSuperuser && !r.confirmedEmail
    ensures r.gender == DefaultGender && r.maritalStatus == DefaultMaritalStatus
    ensures r.address.None? && r.bankInfo.None? && r.email == "" && r.phoneNumber == ""
  {
    Record(id, "", "", "", "", None, DefaultGender, DefaultMaritalStatus,
           false, false, false, false, true, Blank, None)
  }

  // ---------------------------------------------------------------------
  // CustomerUserManager
  // ---------------------------------------------------------------------

  datatype CreateError =
    | EmailNotSet      // ValueError('Email field must be set')
    | DuplicateEmail   // the unique constraint on `email` refuses the save
    | DuplicatePhone   // the unique constraint on `phone_number` refuses the save
    | UnexpectedKeyword(name: string)   // TypeError from the model constructor

  /** `lower().strip()`, applied after the framework's `normalize_email`. */
  function StoredEmail(normalized: string): (e: string)
    ensures IsLowerCase(e) && IsStripped(e)
  {
    LowerIsLowerCase(normalized);
    StripKeepsLowerCase(Lower(normalized));
    Strip(Lower(normalized))
  }

  /** Storing an already stored email changes nothing. */
  lemma StoredEmailIdempotent(s: string)
    ensures StoredEmail(StoredEmail(s)) == StoredEmail(s)
  {
    var e := StoredEmail(s);
    LowerOfLowerCase(e);
    StripOfStripped(e);
  }

  /** An email that is already lower-case and stripped is stored as it is. */
  lemma StoredEmailFixedPoint(s: string)
    requires IsLowerCase(s) && IsStripped(s)
    ensures StoredEmail(s) == s
  {
    LowerOfLowerCase(s);
    StripOfStripped(s);
  }

  /** An email of white space only is stored as "". */
  lemma BlankEmailStoredEmpty(s: string)
    requires forall i :: 0 <= i < |s| ==> IsSpace(s[i])
    ensures StoredEmail(s) == ""
  {
    StripOfBlank(Lower(s));
  }

  /**
   * `_create_user` with an email of white space only: the emptiness check
   * lets it through, and the user is built with the empty email (the
   * framework's `normalize_email` leaves a string without `@` alone).
   */
  lemma BlankEmailBuildsUser(id: Id, s: string, firstName: string, lastName: string,
                             isStaff: bool, isSupervisor: bool, password: Option<string>,
                             normalize: string -> string)
    requires s != [] && forall i :: 0 <= i < |s| ==> IsSpace(s[i])
    requires normalize(s) == s
    ensures BuildUser(id, Some(s), firstName, lastName, isStaff, isSupervisor, password, normalize).Ok?
    ensures BuildUser(id, Some(s), firstName, lastName, isStaff, isSupervisor, password, normalize).value.email == ""
  {
    BlankEmailStoredEmpty(s);
  }

  /**
   * The record `_create_user` builds before saving it. `email` is None for
   * Python's None; `normalize` is the framework's `normalize_email`;
   * `password` is `extra_fields.get('password')`.
   */
  function BuildUser(id: Id, email: Option<string>, firstName: string, lastName: string,
                     isStaff: bool, isSupervisor: bool, password: Option<string>,
                     normalize: string -> string): (r: Result<Record, CreateError>)
    ensures r.Err? <==> email.None? || email.value == ""
    ensures r.Err? ==> r.error == EmailNotSet
    ensures r.Ok? ==> r.value.id == id && r.value.email == StoredEmail(normalize(email.value))
    ensures r.Ok? ==> IsLowerCase(r.value.email) && IsStripped(r.value.email)
    ensures r.Ok? ==> r.value.firstName == firstName && r.value.lastName == lastName
    ensures r.Ok? ==> r.value.isActive && r.value.isStaff == isStaff
                      && r.value.isSupervisor == isSupervisor && !r.value.isSuperuser
    ensures r.Ok? ==> r.value.password == (if password.Some? then HashOf(password.value) else Unusable)
    ensures r.Ok? ==> r.value.phoneNumber == "" && r.value.bankInfo.None?
  {
    if email.None? || email.value == "" then Err(EmailNotSet)
    else
      var hashed := if password.Some? then HashOf(password.value) else Unusable;
      Ok(DefaultRecord(id).(email := StoredEmail(normalize(email.value)), firstName := firstName,
                            lastName := lastName, isStaff := isStaff, isSupervisor := isSupervisor,
                            isActive := true, password := hashed))
  }

  /**
   * `_create_user` as the code reads: the model constructor is passed
   * `is_supervisor`, a keyword Record does not declare, so it raises for
   * every email that passes the emptiness check and nothing is built.
   */
  function BuildUserAsWritten(email: Option<string>): (r: Result<Record, CreateError>)
    ensures r.Err?
    ensures r.error == EmailNotSet <==> email.None? || email.value == ""
  {
    if email.None? || email.value == "" then Err(EmailNotSet)
    else Err(UnexpectedKeyword("is_supervisor"))
  }

  /** For the email "a@b.c" the code as written raises, while the intended user is built. */
  lemma CreateUserAsWrittenRaises(normalize: string -> string)
    ensures BuildUserAsWritten(Some("a@b.c")) == Err(UnexpectedKeyword("is_supervisor"))
    ensures BuildUser(0, Some("a@b.c"), "", "", false, false, None, normalize).Ok?
  {
  }

  // ---------------------------------------------------------------------
  // BankInfo deletion: on_delete=SET_NULL
  // ---------------------------------------------------------------------

  /** The records after the BankInfo `b` is deleted: every reference to it becomes null. */
  function SetNullReferences(records: map<Id, Record>, b: BankId): (r: map<Id, Record>)
    ensures r.Keys == records.Keys
    ensures forall k :: k in r ==> r[k].bankInfo != Some(b)
    ensures forall k :: k in r && records[k].bankInfo == Some(b) ==> r[k].bankInfo.None?
    ensures forall k :: k in r ==> r[k] == records[k].(bankInfo := r[k].bankInfo)
    ensures forall k :: k in r && records[k].bankInfo != Some(b) ==> r[k] == records[k]
  {
    map k | k in records ::
      if records[k].bankInfo == Some(b) then records[k].(bankInfo := None) else records[k]
  }

  // ---------------------------------------------------------------------
  // The stored tables
  // ---------------------------------------------------------------------

  /**
   * The invariant of the stored tables: each record sits under its own id,
   * every bank reference points at an existing BankInfo, and no two records
   * share an email or a phone number (both columns are unique).
   */
  predicate Consistent(records: map<Id, Record>, banks: map<BankId, BankInfo>)
  {
    && (forall k :: k in records ==> records[k].id == k)
    && (forall k :: k in records && records[k].bankInfo.Some? ==> records[k].bankInfo.value in banks)
    && (forall k, l :: k in records && l in records && records[k].email == records[l].email ==> k == l)
    && (forall k, l :: k in records && l in records && records[k].phoneNumber == records[l].phoneNumber ==> k == l)
  }

  /** Deleting a BankInfo keeps the tables consistent and deletes no record. */
  lemma SetNullKeepsConsistent(records: map<Id, Record>, banks: map<BankId, BankInfo>, b: BankId)
    requires Consistent(records, banks)
    ensures Consistent(SetNullReferences(records, b), banks - {b})
    ensures |SetNullReferences(records, b)| == |records|
  {
    var r := SetNullReferences(records, b);
    assert r.Keys == records.Keys;
    forall k | k in r
      ensures r[k].id == records[k].id
      ensures r[k].email == records[k].email && r[k].phoneNumber == records[k].phoneNumber
    {
    }
  }

  /** The emails of every record but `self`. */
  function OtherEmails(records: map<Id, Record>, self: Option<Id>): set<string>
  {
    set k | k in records && Some(k) != self :: records[k].email
  }

  /** Some record other than `self` has this email. */
  predicate EmailTakenByOther(records: map<Id, Record>, email: string, self: Option<Id>)
  {
    email in OtherEmails(records, self)
  }

  /** The phone numbers of every record but `self`. */
  function OtherPhones(records: map<Id, Record>, self: Option<Id>): set<string>
  {
    set k | k in records && Some(k) != self :: records[k].phoneNumber
  }

  /** Some record other than `self` has this phone number. */
  predicate PhoneTakenByOther(records: map<Id, Record>, phone: string, self: Option<Id>)
  {
    phone in OtherPhones(records, self)
  }

  /** A fresh id excludes no record from the uniqueness checks. */
  lemma OthersOfFresh(records: map<Id, Record>, id: Id)
    requires id !in records
    ensures OtherEmails(records, Some(id)) == OtherEmails(records, None)
    ensures OtherPhones(records, Some(id)) == OtherPhones(records, None)
  {
  }

  /** In consistent tables, a stored record's own email and phone number are held by no other record. */
  lemma OwnValuesNotTaken(records: map<Id, Record>, banks: map<BankId, BankInfo>, pk: Id)
    requires Consistent(records, banks) && pk in records
    ensures !EmailTakenByOther(records, records[pk].email, Some(pk))
    ensures !PhoneTakenByOther(records, records[pk].phoneNumber, Some(pk))
  {
    forall k | k in records && Some(k) != Some(pk) ensures records[k].email != records[pk].email {
    }
    forall k | k in records && Some(k) != Some(pk) ensures records[k].phoneNumber != records[pk].phoneNumber {
    }
  }

  /** `__str__` identifies a stored record: no two records are shown alike. */
  lemma ToStringIdentifies(records: map<Id, Record>, banks: map<BankId, BankInfo>, k: Id, l: Id)
    requires Consistent(records, banks) && k in records && l in records
    ensures records[k].ToString() == records[l].ToString() <==> k == l
  {
  }

  /**
   * Saving a record whose email and phone number no other record has keeps
   * the tables consistent.
   */
  lemma SaveKeepsConsistent(records: map<Id, Record>, banks: map<BankId, BankInfo>, r: Record)
    requires Consistent(records, banks)
    requires r.bankInfo.None? || r.bankInfo.value in banks
    requires !EmailTakenByOther(records, r.email, Some(r.id))
    requires !PhoneTakenByOther(records, r.phoneNumber, Some(r.id))
    ensures Consistent(records[r.id := r], banks)
  {
    var s := records[r.id := r];
    forall k, l | k in s && l in s && s[k].email == s[l].email ensures k == l {
    }
    forall k, l | k in s && l in s && s[k].phoneNumber == s[l].phoneNumber ensures k == l {
    }
  }

  /** Deleting a record keeps the tables consistent. */
  lemma DeleteKeepsConsistent(records: map<Id, Record>, banks: map<BankId, BankInfo>, pk: Id)
    requires Consistent(records, banks)
    ensures Consistent(records - {pk}, banks)
  {
  }

  /** The Record and BankInfo tables, which `save()` and `delete()` change in place. */
  class Database {
    var records: map<Id, Record>
    var banks: map<BankId, BankInfo>

    ghost predicate Valid()
      reads this
    {
      Consistent(records, banks)
    }

    constructor ()
      ensures Valid() && records == map[] && banks == map[]
    {
      records := map[];
      banks := map[];
    }

    /**
     * `CustomerUserManager._create_user`: an empty or missing email raises
     * before anything is saved; otherwise the built record is saved under
     * the fresh `id`, unless its email, or its phone number, is already
     * stored. The manager never sets a phone number, so every user it builds
     * has the blank one, and a second such user breaks the unique constraint.
     */
    method CreateUserWithFlags(id: Id, email: Option<string>, firstName: string, lastName: string,
                               isStaff: bool, isSupervisor: bool, password: Option<string>,
                               normalize: string -> string) returns (r: Result<Record, CreateError>)
      requires Valid() && id !in records
      modifies this
      ensures Valid() && banks == old(banks)
      ensures r.Err? ==> records == old(records)
      ensures r.Ok? ==> records == old(records)[id := r.value]
      ensures r == match BuildUser(id, email, firstName, lastName, isStaff, isSupervisor, password, normalize)
                   case Err(e) => Err(e)
                   case Ok(u) =>
                     if EmailTakenByOther(old(records), u.email, None) then Err(DuplicateEmail)
                     else if PhoneTakenByOther(old(records), u.phoneNumber, None) then Err(DuplicatePhone)
                     else Ok(u)
    {
      var built := BuildUser(id, email, firstName, lastName, isStaff, isSupervisor, password, normalize);
      if built.Err? {
        return built;
      }
      var u := built.value;
      if EmailTakenByOther(records, u.email, None) {
        return Err(DuplicateEmail);
      }
      if PhoneTakenByOther(records, u.phoneNumber, None) {
        return Err(DuplicatePhone);
      }
      OthersOfFresh(records, id);
      SaveKeepsConsistent(records, banks, u);
      records := records[id := u];
      r := Ok(u);
    }

    /** `Model.save()` of a record whose email and phone number no other record has. */
    method Save(record: Record)
      requires Valid()
      requires record.bankInfo.None? || record.bankInfo.value in banks
      requires !EmailTakenByOther(records, record.email, Some(record.id))
      requires !PhoneTakenByOther(records, record.phoneNumber, Some(record.id))
      modifies this
      ensures Valid() && banks == old(banks)
      ensures records == old(records)[record.id := record]
    {
      SaveKeepsConsistent(records, banks, record);
      records := records[record.id := record];
    }

    /** `Model.delete()`: removes the row with primary key `pk`. */
    method Delete(pk: Id)
      requires Valid()
      modifies this
      ensures Valid() && banks == old(banks)
      ensures records == old(records) - {pk}
    {
      DeleteKeepsConsistent(records, banks, pk);
      records := records - {pk};
    }

    /** `create_user`: neither staff nor supervisor. */
    method CreateUser(id: Id, email: Option<string>, firstName: string, lastName: string,
                      password: Option<string>, normalize: string -> string)
      returns (r: Result<Record, CreateError>)
      requires Valid() && id !in records
      modifies this
      ensures Valid() && banks == old(banks)
      ensures r.Err? ==> records == old(records)
      ensures r.Ok? ==> records == old(records)[id := r.value]
      ensures r.Ok? ==> r.value.isActive && !r.value.isStaff && !r.value.isSupervisor && r.value.phoneNumber == ""
      ensures r.Err? <==> email.None? || email.value == ""
                          || EmailTakenByOther(old(records), StoredEmail(normalize(email.value)), None)
                          || PhoneTakenByOther(old(records), "", None)
    ensures r.Ok? ==> Ok(r.value) == BuildUser(id, email, firstName, lastName, false, false, password, normalize)
    {
      r := CreateUserWithFlags(id, email, firstName, lastName, false, false, password, normalize);
    }

    /** `create_superuser`: staff and supervisor; the names default to "" at the call site. */
    method CreateSuperuser(id: Id, email: Option<string>, firstName: string, lastName: string,
                           password: Option<string>, normalize: string -> string)
      returns (r: Result<Record, CreateError>)
      requires Valid() && id !in records
      modifies this
      ensures Valid() && banks == old(banks)
      ensures r.Err? ==> records == old(records)
      ensures r.Ok? ==> records == old(records)[id := r.value]
      ensures r.Ok? ==> r.value.isActive && r.value.isStaff && r.value.isSupervisor && !r.value.isSuperuser
      ensures r.Ok? ==> r.value.phoneNumber == ""
      ensures r.Err? <==> email.None? || email.value == ""
                          || EmailTakenByOther(old(records), StoredEmail(normalize(email.value)), None)
                          || PhoneTakenByOther(old(records), "", None)
    ensures r.Ok? ==> Ok(r.value) == BuildUser(id, email, firstName, lastName, true, true, password, normalize)
    {
      r := CreateUserWithFlags(id, email, firstName, lastName, true, true, password, normalize);
    }

    /** `create_staff`: staff but not supervisor. */
    method CreateStaff(id: Id, email: Option<string>, firstName: string, lastName: string,
                       password: Option<string>, normalize: string -> string)
      returns (r: Result<Record, CreateError>)
      requires Valid() && id !in records
      modifies this
      ensures Valid() && banks == old(banks)
      ensures r.Err? ==> records == old(records)
      ensures r.Ok? ==> records == old(records)[id := r.value]
      ensures r.Ok? ==> r.value.isActive && r.value.isStaff && !r.value.isSupervisor && r.value.phoneNumber == ""
      ensures r.Err? <==> email.None? || email.value == ""
                          || EmailTakenByOther(old(records), StoredEmail(normalize(email.value)), None)
                          || PhoneTakenByOther(old(records), "", None)
    ensures r.Ok? ==> Ok(r.value) == BuildUser(id, email, firstName, lastName, true, false, password, normalize)
    {
      r := CreateUserWithFlags(id, email, firstName, lastName, true, false, password, normalize);
    }

    /** Deleting a BankInfo row: the records that referred to it keep existing, with a null reference. */
    method DeleteBankInfo(b: BankId)
      requires Valid() && b in banks
      modifies this
      ensures Valid()
      ensures banks == old(banks) - {b}
      ensures records == SetNullReferences(old(records), b)
      ensures records.Keys == old(records).Keys
    {
      SetNullKeepsConsistent(records, banks, b);
      records := SetNullReferences(records, b);
      banks := banks - {b};
    }
  }

  /**
   * Two users created one after the other through the manager: whatever
   * their emails, the second fails, because both would have the blank phone
   * number and `phone_number` is unique.
   */
  method CreateTwoUsers(db: Database, id1: Id, id2: Id, email1: string, email2: string,
                        normalize: string -> string)
    returns (first: Result<Record, CreateError>, second: Result<Record, CreateError>)
    requires db.Valid() && id1 !in db.records && id2 !in db.records && id1 != id2
    requires email1 != "" && !EmailTakenByOther(db.records, StoredEmail(normalize(email1)), None)
    requires !PhoneTakenByOther(db.records, "", None)
    modifies db
    ensures db.Valid()
    ensures first.Ok? && second.Err?
    ensures db.records == old(db.records)[id1 := first.value]
  {
    first := db.CreateUser(id1, Some(email1), "", "", None, normalize);
    assert db.records[id1].phoneNumber == "";
    second := db.CreateUser(id2, Some(email2), "", "", None, normalize);
  }
}

=== FILE: text.dfy ===
/**
 * The few Python string operations the application relies on, restricted to
 * ASCII: `\d`, `str.lower()` and `str.strip()`.
 */
module Text {

  /** A character matched by `\d` (ASCII digits only). */
  predicate IsDigit(c: char) { '0' <= c <= '9' }

  predicate IsUpper(c: char) { 'A' <= c <= 'Z' }

  /** The ASCII characters Python's `str.isspace()` accepts (and `str.strip()` removes). */
  predicate IsSpace(c: char) { c == ' ' || 9 <= c as int <= 13 || 28 <= c as int <= 31 }

  function LowerChar(c: char): (d: char)
    ensures !IsUpper(d)
    ensures IsSpace(d) == IsSpace(c)
    ensures !IsUpper(c) ==> d == c
  {
    if IsUpper(c) then (c as int + 32) as char else c
  }

  /** `s.lower()` on ASCII letters. */
  function Lower(s: string): (r: string)
    ensures |r| == |s|
    ensures forall i :: 0 <= i < |s| ==> r[i] == LowerChar(s[i])
  {
    seq(|s|, i requires 0 <= i < |s| => LowerChar(s[i]))
  }

  predicate IsLowerCase(s: string) { forall i :: 0 <= i < |s| ==> !IsUpper(s[i]) }

  /** No leading and no trailing white space. */
  predicate IsStripped(s: string) { s == [] || (!IsSpace(s[0]) && !IsSpace(s[|s| - 1])) }

  function StripStart(s: string): (r: string)
    ensures |r| <= |s|
    ensures r == [] || !IsSpace(r[0])
  {
    if s != [] && IsSpace(s[0]) then StripStart(s[1..]) else s
  }

  function StripEnd(s: string): (r: string)
    ensures |r| <= |s|
    ensures r == [] || !IsSpace(r[|r| - 1])
    ensures r != [] ==> r[0] == s[0]
  {
    if s != [] && IsSpace(s[|s| - 1]) then StripEnd(s[..|s| - 1]) else s
  }

  /** StripStart drops a prefix made only of white space. */
  lemma {:induction false} StripStartDropsSpace(s: string)
    ensures StripStart(s) == s[|s| - |StripStart(s)|..]
    ensures forall i :: 0 <= i < |s| - |StripStart(s)| ==> IsSpace(s[i])
  {
    if s != [] && IsSpace(s[0]) {
      StripStartDropsSpace(s[1..]);
      assert forall i :: 1 <= i < |s| ==> s[i] == s[1..][i - 1];
    }
  }

  /** StripEnd drops a suffix made only of white space. */
  lemma {:induction false} StripEndDropsSpace(s: string)
    ensures StripEnd(s) == s[..|StripEnd(s)|]
    ensures forall i :: |StripEnd(s)| <= i < |s| ==> IsSpace(s[i])
  {
    if s != [] && IsSpace(s[|s| - 1]) {
      StripEndDropsSpace(s[..|s| - 1]);
      assert forall i :: 0 <= i < |s| - 1 ==> s[i] == s[..|s| - 1][i];
    }
  }

  /** `s.strip()`: the longest infix of `s` without white space at either end. */
  function Strip(s: string): (r: string)
    ensures IsStripped(r)
    ensures |r| <= |s|
  {
    StripEnd(StripStart(s))
  }

  lemma LowerIsLowerCase(s: string)
    ensures IsLowerCase(Lower(s))
  {
  }

  lemma LowerOfLowerCase(s: string)
    requires IsLowerCase(s)
    ensures Lower(s) == s
  {
  }

  lemma InfixKeepsLowerCase(s: string, i: nat, j: nat)
    requires IsLowerCase(s) && i <= j <= |s|
    ensures IsLowerCase(s[i..j])
  {
    forall k | 0 <= k < j - i ensures !IsUpper(s[i..j][k]) {
      assert s[i..j][k] == s[i + k];
    }
  }

  lemma StripKeepsLowerCase(s: string)
    requires IsLowerCase(s)
    ensures IsLowerCase(Strip(s))
  {
    var t := StripStart(s);
    StripStartDropsSpace(s);
    InfixKeepsLowerCase(s, |s| - |t|, |s|);
    StripEndDropsSpace(t);
    InfixKeepsLowerCase(t, 0, |StripEnd(t)|);
  }

  lemma StripOfStripped(s: string)
    requires IsStripped(s)
    ensures Strip(s) == s
  {
  }

  /** A string made only of white space strips to the empty string. */
  lemma StripOfBlank(s: string)
    requires forall i :: 0 <= i < |s| ==> IsSpace(s[i])
    ensures Strip(s) == ""
  {
    StripStartDropsSpace(s);
  }

  /** Stripping removes only white space: every other character of `s` survives it. */
  lemma StripKeepsNonSpace(s: string, c: char)
    requires c in s && !IsSpace(c)
    ensures c in Strip(s)
  {
    var t := StripStart(s);
    StripStartDropsSpace(s);
    var i :| 0 <= i < |s| && s[i] == c;
    assert t[i - (|s| - |t|)] == c;
    StripEndDropsSpace(t);
    assert Strip(s)[i - (|s| - |t|)] == c;
  }
}

=== FILE: views.dfy ===
/**
 * The request handlers of webapp/views.py, as transitions of a site whose
 * state is the Record table and the current session.
 */
module Views {
  import opened Common
  import opened Text
  import opened Forms
  import opened Models

  /** The user `authenticate` returns and `login` keeps in the session. */
  type Principal = string

  datatype HttpMethod = Get | Post

  /** What a handler answers. */
  datatype Reply =
    | RedirectHome
    | RenderHome(listing: Option<map<Id, Record>>)   // home.html, with every record on GET
    | RenderLogin
    | RenderRegister(errors: seq<FieldError>)
    | RenderRecord(record: Record)
    | RenderAddRecord(errors: seq<FieldError>)
    | RenderUpdateRecord(errors: seq<FieldError>)
    | MissingKey(key: FieldName)   // `request.POST[...]` raises MultiValueDictKeyError: a server error
    | DoesNotExist(pk: Id)         // `Record.objects.get` found no row: a server error

  // ---------------------------------------------------------------------
  // Reading the POST data
  // ---------------------------------------------------------------------

  /** `request.POST['username']` and `request.POST['password']`. */
  function Credentials(data: FormData): (r: Result<(string, string), FieldName>)
    ensures r.Ok? <==> Username in data && Password in data
    ensures r.Ok? ==> r.value == (data[Username], data[Password])
    ensures r.Err? ==> r.error !in data && (r.error == Username || r.error == Password)
    ensures Username !in data ==> r == Err(Username)
  {
    if Username !in data then Err(Username)
    else if Password !in data then Err(Password)
    else Ok((data[Username], data[Password]))
  }

  /** The raw value posted for `n`, or "" when there is none. */
  function Posted(data: FormData, n: FieldName): string
  {
    if n in data then data[n] else ""
  }

  /**
   * `CheckboxInput`: a box reads as ticked unless its parameter is absent,
   * empty, or "false" in any letter case.
   */
  predicate Ticked(data: FormData, n: FieldName)
  {
    n in data && data[n] != "" && Lower(data[n]) != "false"
  }

  // ---------------------------------------------------------------------
  // Primary keys in POST data
  // ---------------------------------------------------------------------

  /** The value of a string of decimal digits. */
  function DecimalValue(s: string): nat
    requires AllDigits(s)
  {
    if s == [] then 0 else 10 * DecimalValue(s[..|s| - 1]) + (s[|s| - 1] as int - '0' as int)
  }

  /** `str(n)`: the decimal digits of `n`, as a rendered choice carries a primary key. */
  function DecimalString(n: nat): (s: string)
    ensures s != [] && AllDigits(s)
  {
    (if n < 10 then "" else DecimalString(n / 10)) + [('0' as int + n % 10) as char]
  }

  /** `int(s)` on a string without sign or white space: a non-empty run of decimal digits. */
  function ParseId(s: string): (r: Option<nat>)
    ensures r.Some? <==> s != [] && AllDigits(s)
  {
    if s != [] && AllDigits(s) then Some(DecimalValue(s)) else None
  }

  /** Parsing the rendered form of a key gives the key back. */
  lemma {:induction false} ParseIdRoundTrip(n: nat)
    ensures ParseId(DecimalString(n)) == Some(n)
  {
    var s := DecimalString(n);
    var last := s[|s| - 1];
    assert last as int - '0' as int == n % 10;
    if n < 10 {
      assert s[..|s| - 1] == [];
      assert DecimalValue(s) == 10 * DecimalValue([]) + n % 10;
    } else {
      ParseIdRoundTrip(n / 10);
      assert s[..|s| - 1] == DecimalString(n / 10);
      assert DecimalValue(s) == 10 * (n / 10) + n % 10;
    }
  }

  // ---------------------------------------------------------------------
  // The fields AddRecordForm inherits from Record
  // ---------------------------------------------------------------------

  const InvalidChoiceMessage: string := "Select a valid choice."

  /**
   * The `gender` choice field: required, and the raw value (not stripped)
   * must be the code of one of GENDER_CHOICES.
   */
  function GenderChoice(data: FormData): (r: Result<Gender, FieldError>)
    ensures r.Ok? <==> |Posted(data, GenderParam)| == 1 && GenderFromCode(Posted(data, GenderParam)[0]).Some?
    ensures r.Ok? ==> [r.value.Code()] == Posted(data, GenderParam)
    ensures r.Err? ==> r.error.Field() == GenderParam
    ensures r.Err? ==> (r.error.Required? <==> Posted(data, GenderParam) == "")
  {
    var s := Posted(data, GenderParam);
    if s == "" then Err(Required(GenderParam))
    else if |s| == 1 && GenderFromCode(s[0]).Some? then Ok(GenderFromCode(s[0]).value)
    else Err(Invalid(GenderParam, InvalidChoiceMessage))
  }

  /**
   * The `marital_status` choice field: required, and the raw value must be
   * the code of one of the four declared choices, which leaves out the
   * model's default 'X'.
   */
  function MaritalStatusChoice(data: FormData): (r: Result<MaritalStatus, FieldError>)
    ensures r.Ok? <==> |Posted(data, MaritalStatusParam)| == 1
                       && MaritalStatusFromChoice(Posted(data, MaritalStatusParam)[0]).Some?
    ensures r.Ok? ==> [r.value.Code()] == Posted(data, MaritalStatusParam) && r.value != MaritalNA
    ensures r.Err? ==> r.error.Field() == MaritalStatusParam
    ensures r.Err? ==> (r.error.Required? <==> Posted(data, MaritalStatusParam) == "")
  {
    var s := Posted(data, MaritalStatusParam);
    if s == "" then Err(Required(MaritalStatusParam))
    else if |s| == 1 && MaritalStatusFromChoice(s[0]).Some? then Ok(MaritalStatusFromChoice(s[0]).value)
    else Err(Invalid(MaritalStatusParam, InvalidChoiceMessage))
  }

  /** The bank a posted `bank_info` names: none for an empty value, else the parsed key, if it parses. */
  function PostedBank(data: FormData): Option<BankId>
  {
    if Posted(data, Bank) == "" then None else ParseId(Strip(Posted(data, Bank)))
  }

  /**
   * The `bank_info` choice field: optional; a non-empty value must be the
   * primary key of an existing BankInfo.
   */
  function BankChoice(data: FormData, banks: map<BankId, BankInfo>): (r: Result<Option<BankId>, FieldError>)
    ensures r.Ok? <==> PostedBank(data).None? == (Posted(data, Bank) == "")
                       && (PostedBank(data).Some? ==> PostedBank(data).value in banks)
    ensures r.Ok? ==> r.value == PostedBank(data)
    ensures r.Err? ==> r.error == Invalid(Bank, InvalidChoiceMessage)
  {
    if Posted(data, Bank) == "" then Ok(None)
    else match ParseId(Strip(Posted(data, Bank)))
      case Some(b) => if b in banks then Ok(Some(b)) else Err(Invalid(Bank, InvalidChoiceMessage))
      case None => Err(Invalid(Bank, InvalidChoiceMessage))
  }

  /** Submitting the rendered key of an existing bank selects that bank. */
  lemma ListedBankSelected(data: FormData, banks: map<BankId, BankInfo>, b: BankId)
    requires b in banks && Bank in data && data[Bank] == DecimalString(b)
    ensures BankChoice(data, banks) == Ok(Some(b))
  {
    var s := DecimalString(b);
    assert IsStripped(s);
    StripOfStripped(s);
    ParseIdRoundTrip(b);
  }

  /** The inherited fields accept the data: password, gender, marital status and bank. */
  predicate InheritedAccepts(data: FormData, banks: map<BankId, BankInfo>)
  {
    && CleanField(RecordPasswordField, data).Ok?
    && GenderChoice(data).Ok? && MaritalStatusChoice(data).Ok?
    && BankChoice(data, banks).Ok?
  }

  /** The errors of the inherited fields; the four check boxes never fail. */
  function InheritedErrors(data: FormData, banks: map<BankId, BankInfo>): (errs: seq<FieldError>)
    ensures errs == [] <==> InheritedAccepts(data, banks)
  {
    var password := ErrorsOf(CleanField(RecordPasswordField, data));
    var gender := ErrorsOf(GenderChoice(data));
    var marital := ErrorsOf(MaritalStatusChoice(data));
    var bank := ErrorsOf(BankChoice(data, banks));
    assert |password + gender + marital + bank| == |password| + |gender| + |marital| + |bank|;
    password + gender + marital + bank
  }

  // ---------------------------------------------------------------------
  // AddRecordForm
  // ---------------------------------------------------------------------

  /**
   * The values AddRecordForm writes into Record fields: its five declared
   * fields that are Record columns (city, state and zipcode are not) and
   * the inherited fields.
   */
  datatype RecordValues = RecordValues(
    firstName: string, lastName: string, email: string, phoneNumber: string, address: string,
    password: string, gender: Gender, maritalStatus: MaritalStatus,
    bankInfo: Option<BankId>, isStaff: bool, isSuperuser: bool, isActive: bool, confirmedEmail: bool)

  /** The cleaned values of the form fields that are also Record fields. */
  function ValuesOf(data: FormData): (v: RecordValues)
    ensures IsStripped(v.firstName) && IsStripped(v.lastName) && IsStripped(v.email)
    ensures IsStripped(v.phoneNumber) && IsStripped(v.address) && IsStripped(v.password)
    ensures GenderChoice(data).Ok? ==> [v.gender.Code()] == Posted(data, GenderParam)
    ensures MaritalStatusChoice(data).Ok? ==> [v.maritalStatus.Code()] == Posted(data, MaritalStatusParam)
    ensures IsStaff !in data ==> !v.isStaff
    ensures IsSuperuser !in data ==> !v.isSuperuser
    ensures IsActive !in data ==> !v.isActive
    ensures ConfirmedEmail !in data ==> !v.confirmedEmail
    ensures Bank !in data ==> v.bankInfo.None?
  {
    RecordValues(
      Strip(Posted(data, FirstName)), Strip(Posted(data, LastName)), Strip(Posted(data, Email)),
      Strip(Posted(data, PhoneNumber)), Strip(Posted(data, Address)), Strip(Posted(data, Password)),
      if GenderChoice(data).Ok? then GenderChoice(data).value else DefaultGender,
      if MaritalStatusChoice(data).Ok? then MaritalStatusChoice(data).value else DefaultMaritalStatus,
      PostedBank(data),
      Ticked(data, IsStaff), Ticked(data, IsSuperuser), Ticked(data, IsActive), Ticked(data, ConfirmedEmail))
  }

  /**
   * Each value the form saves is the cleaned value of its field whenever
   * that field accepts the data, and each check box is read as CheckboxInput
   * reads it.
   */
  lemma ValuesOfCleaned(data: FormData, banks: map<BankId, BankInfo>)
    ensures var c := CleanField(RequiredText(FirstName), data); c.Ok? ==> ValuesOf(data).firstName == c.value
    ensures var c := CleanField(RequiredText(LastName), data); c.Ok? ==> ValuesOf(data).lastName == c.value
    ensures var c := CleanField(RequiredText(Email), data); c.Ok? ==> ValuesOf(data).email == c.value
    ensures var c := CleanField(RequiredText(PhoneNumber), data); c.Ok? ==> ValuesOf(data).phoneNumber == c.value
    ensures var c := CleanField(RequiredText(Address), data); c.Ok? ==> ValuesOf(data).address == c.value
    ensures var c := CleanField(RecordPasswordField, data); c.Ok? ==> ValuesOf(data).password == c.value
    ensures GenderChoice(data).Ok? ==> ValuesOf(data).gender == GenderChoice(data).value
    ensures MaritalStatusChoice(data).Ok? ==> ValuesOf(data).maritalStatus == MaritalStatusChoice(data).value
    ensures BankChoice(data, banks).Ok? ==> ValuesOf(data).bankInfo == BankChoice(data, banks).value
    ensures ValuesOf(data).isStaff == Ticked(data, IsStaff)
    ensures ValuesOf(data).isSuperuser == Ticked(data, IsSuperuser)
    ensures ValuesOf(data).isActive == Ticked(data, IsActive)
    ensures ValuesOf(data).confirmedEmail == Ticked(data, ConfirmedEmail)
  {
  }

  /** The values fit the Record columns: first_name and last_name 50 characters, address 255. */
  predicate LengthsFit(v: RecordValues)
  {
    |v.firstName| <= 50 && |v.lastName| <= 50 && |v.address| <= 255
  }

  function LengthErrors(v: RecordValues): (errs: seq<FieldError>)
    ensures errs == [] <==> LengthsFit(v)
  {
    (if |v.firstName| > 50 then [TooLong(FirstName, 50)] else [])
    + (if |v.lastName| > 50 then [TooLong(LastName, 50)] else [])
    + (if |v.address| > 255 then [TooLong(Address, 255)] else [])
  }

  /** `validate_unique`: no record other than `self` has the email or the phone number. */
  predicate UniqueValues(records: map<Id, Record>, v: RecordValues, self: Option<Id>)
  {
    !EmailTakenByOther(records, v.email, self) && !PhoneTakenByOther(records, v.phoneNumber, self)
  }

  function UniquenessErrors(records: map<Id, Record>, v: RecordValues, self: Option<Id>): (errs: seq<FieldError>)
    ensures errs == [] <==> UniqueValues(records, v, self)
  {
    (if EmailTakenByOther(records, v.email, self)
     then [Invalid(Email, "Record with this Email address already exists.")] else [])
    + (if PhoneTakenByOther(records, v.phoneNumber, self)
       then [Invalid(PhoneNumber, "Record with this Phone number already exists.")] else [])
  }

  /**
   * The Record model's own validation passes: the lengths fit, no other
   * record has the email or the phone number, and the rest of the model
   * validation, `modelOk`, passes.
   */
  predicate ModelAccepts(data: FormData, records: map<Id, Record>, self: Option<Id>, modelOk: bool)
  {
    var v := ValuesOf(data);
    LengthsFit(v) && UniqueValues(records, v, self) && modelOk
  }

  /** The errors the Record model's validation adds to the form. */
  function ModelErrors(data: FormData, records: map<Id, Record>, self: Option<Id>, modelOk: bool)
    : (errs: seq<FieldError>)
    ensures errs == [] <==> ModelAccepts(data, records, self, modelOk)
  {
    var v := ValuesOf(data);
    var lengths := LengthErrors(v);
    var unique := UniquenessErrors(records, v, self);
    // The checks behind `modelOk` concern several fields; `Email` only
    // stands in for whichever of them failed.
    var rest := if modelOk then [] else [Invalid(Email, "rejected by the Record model")];
    assert |lengths + unique + rest| == |lengths| + |unique| + |rest|;
    lengths + unique + rest
  }

  /**
   * AddRecordForm bound to `data`, for a new record (`self` None) or for
   * the record `self`. `modelOk` stands for the validation of the Record
   * fields the form inherits from the model and that are not modelled here.
   */
  function AddRecordForm(data: FormData, records: map<Id, Record>, banks: map<BankId, BankInfo>,
                         self: Option<Id>, modelOk: bool)
    : (r: Result<RecordValues, seq<FieldError>>)
    ensures r.Err? ==> r.error != []
    ensures r.Ok? ==> r.value == ValuesOf(data) && UniqueValues(records, r.value, self)
    ensures r.Ok? ==> r.value.bankInfo.None? || r.value.bankInfo.value in banks
  {
    var errors := FieldErrors(AddRecordFields, data) + InheritedErrors(data, banks)
                  + ModelErrors(data, records, self, modelOk);
    if errors == [] then Ok(ValuesOf(data)) else Err(errors)
  }

  /**
   * The form is accepted exactly when its eight declared fields are filled
   * in, the inherited fields are valid, and the Record model's validation
   * passes.
   */
  lemma AddRecordFormAccepts(data: FormData, records: map<Id, Record>, banks: map<BankId, BankInfo>,
                             self: Option<Id>, modelOk: bool)
    ensures AddRecordForm(data, records, banks, self, modelOk).Ok? <==>
              (forall n :: n in AddRecordFieldNames ==> Filled(data, n))
              && InheritedAccepts(data, banks)
              && ModelAccepts(data, records, self, modelOk)
  {
    var fieldErrors := FieldErrors(AddRecordFields, data);
    var inherited := InheritedErrors(data, banks);
    var modelErrors := ModelErrors(data, records, self, modelOk);
    assert AddRecordForm(data, records, banks, self, modelOk).Ok? <==> fieldErrors + inherited + modelErrors == [];
    assert |fieldErrors + inherited + modelErrors| == |fieldErrors| + |inherited| + |modelErrors|;
    AddRecordFieldsAllRequired(data);
  }

  /** A form whose email another record already has is rejected. */
  lemma DuplicateEmailRejected(data: FormData, records: map<Id, Record>, banks: map<BankId, BankInfo>,
                               self: Option<Id>, modelOk: bool, k: Id)
    requires k in records && Some(k) != self && records[k].email == ValuesOf(data).email
    ensures AddRecordForm(data, records, banks, self, modelOk).Err?
  {
    assert records[k].email in OtherEmails(records, self);
  }

  /** A form whose phone number another record already has is rejected. */
  lemma DuplicatePhoneRejected(data: FormData, records: map<Id, Record>, banks: map<BankId, BankInfo>,
                               self: Option<Id>, modelOk: bool, k: Id)
    requires k in records && Some(k) != self && records[k].phoneNumber == ValuesOf(data).phoneNumber
    ensures AddRecordForm(data, records, banks, self, modelOk).Err?
  {
    assert records[k].phoneNumber in OtherPhones(records, self);
  }

  /** An accepted form never leaves the marital status at the model's default 'X'. */
  lemma AcceptedMaritalStatusDeclared(data: FormData, records: map<Id, Record>, banks: map<BankId, BankInfo>,
                                      self: Option<Id>, modelOk: bool)
    requires AddRecordForm(data, records, banks, self, modelOk).Ok?
    ensures AddRecordForm(data, records, banks, self, modelOk).value.maritalStatus != MaritalNA
  {
    AddRecordFormAccepts(data, records, banks, self, modelOk);
  }

  /** The record after the form's values are saved into it: only its id and supervisor flag survive. */
  function ApplyValues(r: Record, v: RecordValues): (s: Record)
    ensures s.id == r.id && s.isSupervisor == r.isSupervisor
  {
    Record(r.id, v.email, v.firstName, v.lastName, v.phoneNumber, Some(v.address), v.gender,
           v.maritalStatus, v.confirmedEmail, v.isStaff, v.isSuperuser, r.isSupervisor, v.isActive,
           PlainText(v.password), v.bankInfo)
  }

  /**
   * Saving the form writes every modelled column but the id and the
   * supervisor flag from the form's values (the password as plain text), so
   * what it writes does not depend on the record's previous values.
   */
  lemma ApplyValuesOverwrites(r: Record, q: Record, v: RecordValues)
    requires r.id == q.id && r.isSupervisor == q.isSupervisor
    ensures ApplyValues(r, v) == ApplyValues(q, v)
    ensures var s := ApplyValues(r, v);
            && s.firstName == v.firstName && s.lastName == v.lastName && s.email == v.email
            && s.phoneNumber == v.phoneNumber && s.address == Some(v.address)
            && s.password == PlainText(v.password)
            && s.gender == v.gender && s.maritalStatus == v.maritalStatus && s.bankInfo == v.bankInfo
            && s.isStaff == v.isStaff && s.isSuperuser == v.isSuperuser
            && s.isActive == v.isActive && s.confirmedEmail == v.confirmedEmail
  {
  }

  /**
   * Saving an accepted form stores the posted password as plain text, and
   * clears `is_active` when the POST carries no such box: an update that
   * leaves the box out deactivates the record.
   */
  lemma SavedFormOverwritesAccount(r: Record, data: FormData)
    requires IsActive !in data
    ensures ApplyValues(r, ValuesOf(data)).password == PlainText(Strip(Posted(data, Password)))
    ensures !ApplyValues(r, ValuesOf(data)).isActive
  {
  }

  // ---------------------------------------------------------------------
  // SignUpForm and the existing users
  // ---------------------------------------------------------------------

  /** The saved usernames, compared without regard to letter case. */
  function TakenNames(accounts: set<Principal>): set<string>
  {
    set a | a in accounts :: Lower(a)
  }

  /**
   * `clean_username` of UserCreationForm: once the username field is clean,
   * it is refused when a saved user has the same name up to letter case.
   */
  predicate UsernameTaken(data: FormData, accounts: set<Principal>)
  {
    CleanField(UsernameField, data).Ok? && Lower(CleanField(UsernameField, data).value) in TakenNames(accounts)
  }

  /** The errors of a submitted sign-up form, given the users saved so far. */
  function RegisterErrors(data: FormData, userCreationOk: bool, accounts: set<Principal>): (errs: seq<FieldError>)
    ensures errs == [] <==> SignUpErrors(data, userCreationOk) == [] && !UsernameTaken(data, accounts)
  {
    var signUp := SignUpErrors(data, userCreationOk);
    var taken := if UsernameTaken(data, accounts)
                 then [Invalid(Username, "A user with that username already exists.")] else [];
    assert |signUp + taken| == |signUp| + |taken|;
    signUp + taken
  }

  /** A username that a saved user already has, in any letter case, is refused. */
  lemma TakenUsernameRejected(data: FormData, userCreationOk: bool, accounts: set<Principal>, a: Principal)
    requires a in accounts && Username in data && Lower(Strip(data[Username])) == Lower(a)
    requires CleanField(UsernameField, data).Ok?
    ensures RegisterErrors(data, userCreationOk, accounts) != []
  {
    assert Lower(a) in TakenNames(accounts);
  }

  // ---------------------------------------------------------------------
  // The site
  // ---------------------------------------------------------------------

  class Site {
    /** The Record and BankInfo tables. */
    const db: Database
    /** The user logged in on this session, if any. */
    var session: Option<Principal>
    /** The users SignUpForm has saved (Django's User table). */
    var accounts: set<Principal>

    ghost predicate Valid()
      reads db
    {
      db.Valid()
    }

    constructor (db: Database)
      requires db.Valid()
      ensures Valid() && this.db == db && session.None? && accounts == {}
    {
      this.db := db;
      session := None;
      accounts := {};
    }

    /**
     * `home`: a POST logs in when `authenticate` accepts the credentials and
     * leaves the session alone otherwise; a GET lists every record.
     */
    method Home(verb: HttpMethod, data: FormData, authenticate: (string, string) -> Option<Principal>)
      returns (reply: Reply)
      requires Valid()
      modifies this`session
      ensures Valid() && unchanged(db)
      ensures verb == Get ==> reply == RenderHome(Some(db.records)) && session == old(session)
      ensures verb == Post && Credentials(data).Err? ==>
                reply == MissingKey(Credentials(data).error) && session == old(session)
      ensures verb == Post && Credentials(data).Ok? ==>
                var user := authenticate(data[Username], data[Password]);
                if user.Some? then session == user && reply == RedirectHome
                else session == old(session) && reply == RenderHome(None)
    {
      if verb == Get {
        reply := RenderHome(Some(db.records));
      } else {
        var credentials := Credentials(data);
        if credentials.Err? {
          reply := MissingKey(credentials.error);
        } else {
          var user := authenticate(credentials.value.0, credentials.value.1);
          if user.Some? {
            session := user;
            reply := RedirectHome;
          } else {
            reply := RenderHome(None);
          }
        }
      }
    }

    /** `login_user`: as the POST branch of `home`, but a failed login renders the login page. */
    method LoginUser(verb: HttpMethod, data: FormData, authenticate: (string, string) -> Option<Principal>)
      returns (reply: Reply)
      requires Valid()
      modifies this`session
      ensures Valid() && unchanged(db)
      ensures verb == Get ==> reply == RenderLogin && session == old(session)
      ensures verb == Post && Credentials(data).Err? ==>
                reply == MissingKey(Credentials(data).error) && session == old(session)
      ensures verb == Post && Credentials(data).Ok? ==>
                var user := authenticate(data[Username], data[Password]);
                if user.Some? then session == user && reply == RedirectHome
                else session == old(session) && reply == RenderLogin
    {
      reply := RenderLogin;
      if verb == Post {
        var credentials := Credentials(data);
        if credentials.Err? {
          reply := MissingKey(credentials.error);
        } else {
          var user := authenticate(credentials.value.0, credentials.value.1);
          if user.Some? {
            session := user;
            reply := RedirectHome;
          }
        }
      }
    }

    /** `logout_user`: always ends logged out, whatever the session was. */
    method LogoutUser() returns (reply: Reply)
      requires Valid()
      modifies this`session
      ensures Valid() && unchanged(db)
      ensures session.None? && reply == RedirectHome
    {
      session := None;
      reply := RedirectHome;
    }

    /**
     * `register_user`: a valid sign-up form, whose username no saved user
     * has, saves a new user and then logs in as whoever `authenticate`
     * returns for the new credentials.
     */
    method RegisterUser(verb: HttpMethod, data: FormData, userCreationOk: bool,
                        authenticate: (string, string) -> Option<Principal>)
      returns (reply: Reply)
      requires Valid()
      modifies this`session, this`accounts
      ensures Valid() && unchanged(db)
      ensures verb == Get ==> reply == RenderRegister([]) && unchanged(this)
      ensures verb == Post && RegisterErrors(data, userCreationOk, old(accounts)) != [] ==>
                reply == RenderRegister(RegisterErrors(data, userCreationOk, old(accounts))) && unchanged(this)
      ensures verb == Post && UsernameTaken(data, old(accounts)) ==> unchanged(this) && reply.RenderRegister?
      ensures verb == Post && RegisterErrors(data, userCreationOk, old(accounts)) == [] ==>
                && accounts == old(accounts) + {Strip(Posted(data, Username))}
                && var user := authenticate(Strip(Posted(data, Username)), Posted(data, Password1));
                   if user.Some? then session == user && reply == RedirectHome
                   else session == old(session) && reply == RenderRegister([])
    {
      reply := RenderRegister([]);
      if verb == Post {
        var errors := RegisterErrors(data, userCreationOk, accounts);
        if errors != [] {
          reply := RenderRegister(errors);
        } else {
          var username := Strip(Posted(data, Username));
          accounts := accounts + {username};
          var user := authenticate(username, Posted(data, Password1));
          if user.Some? {
            session := user;
            reply := RedirectHome;
          }
        }
      }
    }

    /** `customer_record`: never changes anything; a logged-in caller sees the record with id `pk`. */
    method CustomerRecord(pk: Id) returns (reply: Reply)
      requires Valid()
      ensures session.None? ==> reply == RedirectHome
      ensures session.Some? && pk in db.records ==> reply == RenderRecord(db.records[pk])
      ensures reply.RenderRecord? ==> reply.record.id == pk
      ensures session.Some? && pk !in db.records ==> reply == DoesNotExist(pk)
    {
      if session.None? {
        reply := RedirectHome;
      } else if pk !in db.records {
        reply := DoesNotExist(pk);
      } else {
        reply := RenderRecord(db.records[pk]);
      }
    }

    /**
     * `delete_record`: a logged-in caller removes exactly the record `pk`,
     * or fails when there is none; anyone else changes nothing.
     */
    method DeleteRecord(pk: Id) returns (reply: Reply)
      requires Valid()
      modifies db
      ensures Valid() && db.banks == old(db.banks)
      ensures session.None? ==> db.records == old(db.records) && reply == RedirectHome
      ensures session.Some? && pk in old(db.records) ==>
                db.records == old(db.records) - {pk} && reply == RedirectHome
      ensures session.Some? && pk !in old(db.records) ==>
                db.records == old(db.records) && reply == DoesNotExist(pk)
    {
      reply := RedirectHome;
      if session.Some? {
        if pk !in db.records {
          reply := DoesNotExist(pk);
        } else {
          db.Delete(pk);
        }
      }
    }

    /**
     * `form.is_valid()` followed by `form.save()` for AddRecordForm bound to
     * `data` and to the instance `base`: a new record (`self` None) whose id
     * is fresh, or the stored record `self`.
     */
    method SubmitRecordForm(data: FormData, modelOk: bool, base: Record, self: Option<Id>)
      returns (form: Result<RecordValues, seq<FieldError>>)
      requires Valid()
      requires self.None? ==> base.id !in db.records
      requires self.Some? ==> self.value in db.records && base == db.records[self.value]
      modifies db
      ensures Valid() && db.banks == old(db.banks)
      ensures form == AddRecordForm(data, old(db.records), db.banks, self, modelOk)
      ensures form.Err? ==> db.records == old(db.records)
      ensures form.Ok? ==> db.records == old(db.records)[base.id := ApplyValues(base, form.value)]
    {
      form := AddRecordForm(data, db.records, db.banks, self, modelOk);
      if form.Ok? {
        var record := ApplyValues(base, form.value);
        if self.None? {
          OthersOfFresh(db.records, base.id);
        }
        db.Save(record);
      }
    }

    /**
     * `add_record`: there is no login check; a valid form saves one new
     * record under the fresh id `newId`, whoever is logged in.
     */
    method AddRecord(verb: HttpMethod, data: FormData, modelOk: bool, newId: Id) returns (reply: Reply)
      requires Valid() && newId !in db.records
      modifies db
      ensures Valid() && db.banks == old(db.banks)
      ensures verb == Get ==> db.records == old(db.records) && reply == RenderAddRecord([])
      ensures verb == Post ==>
                match AddRecordForm(data, old(db.records), db.banks, None, modelOk)
                case Err(errors) => db.records == old(db.records) && reply == RenderAddRecord(errors)
                case Ok(v) => db.records == old(db.records)[newId := ApplyValues(DefaultRecord(newId), v)]
                              && reply == RedirectHome
    {
      reply := RenderAddRecord([]);
      if verb == Post {
        var form := SubmitRecordForm(data, modelOk, DefaultRecord(newId), None);
        reply := if form.Ok? then RedirectHome else RenderAddRecord(form.error);
      }
    }

    /**
     * The part of `update_record` after the record `pk` is found: the form
     * is bound only to a POST with some parameter (`emptyPost` says there is
     * none, read or not), and when valid its values are saved into that record.
     */
    method EditRecord(verb: HttpMethod, data: FormData, emptyPost: bool, modelOk: bool, pk: Id)
      returns (reply: Reply)
      requires Valid() && pk in db.records
      requires emptyPost ==> data == map[]
      modifies db
      ensures Valid() && db.banks == old(db.banks)
      ensures verb == Get || emptyPost ==> db.records == old(db.records) && reply == RenderUpdateRecord([])
      ensures verb == Post && !emptyPost ==>
                match AddRecordForm(data, old(db.records), db.banks, Some(pk), modelOk)
                case Err(errors) => db.records == old(db.records) && reply == RenderUpdateRecord(errors)
                case Ok(v) => db.records == old(db.records)[pk := ApplyValues(old(db.records)[pk], v)]
                              && reply == RedirectHome
    {
      if verb == Get || emptyPost {
        reply := RenderUpdateRecord([]);
      } else {
        var form := SubmitRecordForm(data, modelOk, db.records[pk], Some(pk));
        reply := if form.Ok? then RedirectHome else RenderUpdateRecord(form.error);
      }
    }

    /**
     * `update_record`: for a logged-in caller, the record `pk` must exist;
     * the form is bound only to a non-empty POST, and when valid its values
     * are saved into that record, which keeps its id.
     */
    method UpdateRecord(verb: HttpMethod, data: FormData, emptyPost: bool, modelOk: bool, pk: Id)
      returns (reply: Reply)
      requires Valid()
      requires emptyPost ==> data == map[]
      modifies db
      ensures Valid() && db.banks == old(db.banks)
      ensures session.None? ==> db.records == old(db.records) && reply == RedirectHome
      ensures session.Some? && pk !in old(db.records) ==>
                db.records == old(db.records) && reply == DoesNotExist(pk)
      ensures session.Some? && pk in old(db.records) && (verb == Get || emptyPost) ==>
                db.records == old(db.records) && reply == RenderUpdateRecord([])
      ensures session.Some? && pk in old(db.records) && verb == Post && !emptyPost ==>
                match AddRecordForm(data, old(db.records), db.banks, Some(pk), modelOk)
                case Err(errors) => db.records == old(db.records) && reply == RenderUpdateRecord(errors)
                case Ok(v) => db.records == old(db.records)[pk := ApplyValues(old(db.records)[pk], v)]
                              && reply == RedirectHome
    {
      if session.None? {
        reply := RedirectHome;
      } else if pk !in db.records {
        reply := DoesNotExist(pk);
      } else {
        reply := EditRecord(verb, data, emptyPost, modelOk, pk);
      }
    }
  }

  /** Deleting the same record twice: the first call removes it, the second finds nothing. */
  method DeleteTwice(site: Site, pk: Id) returns (first: Reply, second: Reply)
    requires site.Valid() && site.session.Some? && pk in site.db.records
    modifies site.db
    ensures site.Valid()
    ensures first == RedirectHome && second == DoesNotExist(pk)
    ensures site.db.records == old(site.db.records) - {pk}
  {
    first := site.DeleteRecord(pk);
    second := site.DeleteRecord(pk);
  }
}
